=== FILE: README.md ===
# doctor_frontend: slot grid, booking, profile editor and shared state

A Dafny model of the client logic of a doctor-appointment web front end.

- **The appointment page.**
  - It builds a week of bookable half-hour slots for a doctor: `getAvailableSlots` walks each of the next seven days from a start time up to 21:00.
  - It drops the steps whose label the doctor already has booked under that day's `day_month_year` key.
  - It keeps only the days that still have a free step.
  - It decides what "Book an appointment" does: send the user to the login page, warn, or post the booking. It then reacts to the reply.
- **The profile page.**
  - Shows values through `safeText` and picks an image source.
  - Applies input changes to its local copy of the profile, including the `address_<key>` inputs that edit one key of the nested address object.
  - Builds the form that "Save information" posts, with the address as JSON.
  - Switches between view mode and edit mode.
- **The context provider.** It holds the session token and mirrors it into browser storage. It holds the doctor directory and the signed-in user's profile, and updates them from backend replies. It starts fetches on mount and when the token changes.

Modelling choices:
- Times are minutes of the day: 600 is 10:00 and 1260 is 21:00.
- The seven calendar days are an input, so no calendar arithmetic appears.
- The time label that the source obtains from `toLocaleTimeString` is a parameter `labelOf`. The slot properties that need distinct labels assume only that `labelOf` is injective on a day's minutes. `TimeLabel.Label` is a concrete en-US "hh:mm AM" label, and it is proved injective.
- A backend call is an abstract outcome:
  - `Ok`: a reply with `success: true`;
  - `AppFail`: a reply with `success: false`;
  - `Transport`: a thrown error.
- Notices ("toasts") and navigations are returned as values.

Modules:
- `Common`: options, JavaScript truthiness, replies, notices and text splitting.
- `Decimal`: number to decimal text.
- `TimeLabel`: the concrete label.
- `DateKey`: the booked-map key.
- `Records`: the cached entities.
- `Slots` and `SlotFacts`: the generator and its properties.
- `Booking` and `BookingFacts`: booking.
- `Json`: `JSON.stringify` of strings and string objects, with a reader for that text.
- `ProfilePage`: the profile page.
- `AppState`: the context provider.
- `Flows`: round trips across the pages and the shared state.

Behaviour of the code worth noting:
- A profile reply with `success: false` clears the profile without any notice. Only a thrown error raises one.
- A thrown error on booking shows the backend's message when the error carries one, and the error's own text only otherwise.
- Clearing the token does not clear the cached profile.
- The address key of an input named `address_a_b` is `a`, the segment between the first and second underscore. It is not everything after the first underscore.
- A profile save that throws shows the error's own text (`error.message`), never the message of the response the error may carry. A save answered with `success: false` shows the backend's message.
- A `null` profile field is posted as "null", while a missing one is posted as "undefined". The phone is the exception: it is posted as "" in both cases.

## Model

| member | source | states |
|---|---|---|
| Slots.GetAvailableSlots | src/pages/Appoinments.jsx:29-84 | the loop builds exactly the week grid: the non-empty day buckets in day order, at most seven, none empty |
| Slots.DaySlots | src/pages/Appoinments.jsx:52-76 | the inner walk yields the free steps from the start to 21:00, in order |
| Slots.GridShape | src/pages/Appoinments.jsx:35-81 | the grid has at most 7 buckets, one per day offset with a free step, in increasing offset order, each equal to that day's bucket and non-empty; a day is shown iff its bucket is non-empty |
| Slots.DayZeroStart | src/pages/Appoinments.jsx:44-46 | today's start is on a half hour and not before 10:00; from 11:00 on it is strictly after the current time and at most an hour later; before 11:00 it is 10:00 or 10:30 |
| Slots.Candidates | src/pages/Appoinments.jsx:54-75 | every step of the walk is before 21:00; the walk starts at t when t is before 21:00; the step after the last one is at or past 21:00 |
| Slots.BookedOn | src/pages/Appoinments.jsx:65 | a label counts as booked for a day iff the day's key is in the booked map and the label is listed under it |
| Slots.Keep | src/pages/Appoinments.jsx:65-73 | a day keeps at most one slot per step; which steps it keeps is stated by Slots.KeepSound and Slots.KeepComplete |
| Slots.DropEmpty | src/pages/Appoinments.jsx:78-80 | the kept buckets are no more than the buckets scanned and none is empty; which ones are kept is stated by Slots.DropEmptyDays |
| Slots.WeekGrid | src/pages/Appoinments.jsx:35-81 | the week grid has at most seven buckets and none is empty; Slots.GridShape states which days they are |
| Slots.DropEmptyDays | src/pages/Appoinments.jsx:78-80 | the k-th kept bucket is the bucket of the k-th shown day offset, and there are as many buckets as shown offsets |
| Slots.ShownDaysIncreasing | src/pages/Appoinments.jsx:78-80 | the offsets of the shown days are strictly increasing and in range |
| Slots.ShownDaysExactly | src/pages/Appoinments.jsx:78-80 | an offset is shown iff its bucket is non-empty |
| Slots.DropEmptyStep | src/pages/Appoinments.jsx:78-80 | one outer iteration appends the day's bucket iff it is non-empty |
| Slots.CandidatesUnfold | src/pages/Appoinments.jsx:54-75 | the walk from t is t followed by the walk from t + 30 while t is before 21:00, and empty from 21:00 on |
| Slots.KeepStep | src/pages/Appoinments.jsx:65-75 | one step of the walk keeps the slot at t iff its label is not booked, then continues from t + 30 |
| Slots.KeepSound | src/pages/Appoinments.jsx:65-73 | every kept slot is a candidate step of that day, carries its minute's label, and that label is not booked |
| Slots.KeepComplete | src/pages/Appoinments.jsx:65-73 | every candidate step whose label is not booked is kept |
| Slots.KeepIncreasing | src/pages/Appoinments.jsx:54-76 | kept slots of an increasing walk are strictly increasing in time |
| Slots.KeepAll | src/pages/Appoinments.jsx:65-73 | with no label of the walk booked, every step is kept |
| Slots.FindDoctor | src/pages/Appoinments.jsx:23-26 | the result is the first doctor with the id, and none iff no doctor has it |
| Slots.RefreshSlots | src/pages/Appoinments.jsx:29-31 | without a selected doctor the grid is left as it is; with one it is replaced by that doctor's week grid, which has at most 7 buckets, none of them empty |
| SlotFacts.StepsBeforeBound | src/pages/Appoinments.jsx:54 | the k-th half-hour step from t is in the walk iff it is before 21:00 |
| SlotFacts.CandidatesShape | src/pages/Appoinments.jsx:54-75 | the walk has a step iff t is before 21:00; its first step is t; every step lies in [t, 21:00) a whole number of half hours after t |
| SlotFacts.CandidatesIncreasing | src/pages/Appoinments.jsx:54-75 | the walk is strictly increasing |
| SlotFacts.CandidatesMember | src/pages/Appoinments.jsx:54-75 | x is a step of the walk from t iff t <= x < 21:00 and x - t is a multiple of 30 |
| SlotFacts.LaterDayCandidates | src/pages/Appoinments.jsx:47-54 | every day after today walks exactly 10:00, 10:30, ..., 20:30: 22 steps |
| SlotFacts.DayZeroStartRule | src/pages/Appoinments.jsx:44-46 | today's start is a half hour at or after 10:00; it is on :30 iff the minute is past 30, and never rounds the minute up; it is at or past 21:00 iff the hour is 20 or later; it is before the current time iff the clock reads 10:01 to 10:59 |
| SlotFacts.DayZeroStartAtTenFortyFive | src/pages/Appoinments.jsx:45-46 | at 10:45 today starts at 10:30 |
| SlotFacts.LateDayZeroIsEmpty | src/pages/Appoinments.jsx:44-54 | from 20:00 on today has no slot and is not shown |
| SlotFacts.BucketMembership | src/pages/Appoinments.jsx:54-73 | a slot is in a day's bucket iff it is a candidate step of that day, dated that day, labelled by its minute, and its label is not booked under the day's key |
| SlotFacts.MissingKeyKeepsAll | src/pages/Appoinments.jsx:65 | a day whose key is missing from the booked map keeps every candidate step |
| SlotFacts.KeptOnHalfHours | src/pages/Appoinments.jsx:54-76 | kept slots lie in [start, 21:00) on whole half hours after the start |
| SlotFacts.KeptHalfHoursApart | src/pages/Appoinments.jsx:54-76 | any two kept slots are a positive multiple of 30 minutes apart, the earlier first |
| SlotFacts.KeptLabelsDistinct | src/pages/Appoinments.jsx:55-73 | with an injective label, no two kept slots share a label |
| SlotFacts.BucketOrdered | src/pages/Appoinments.jsx:54-76 | a day's bucket is on half hours from its start to 21:00 and strictly increasing |
| SlotFacts.BucketSharesKey | src/pages/Appoinments.jsx:60-73 | every slot of a bucket carries that day's date, hence one date key |
| SlotFacts.BucketLabelsDistinct | src/pages/Appoinments.jsx:55-58 | with an injective label, a bucket's labels are distinct |
| SlotFacts.EnUsLabelInjective | src/pages/Appoinments.jsx:55-58 | the en-US label is injective on the minutes of a day |
| SlotFacts.EmptyBookingsFullWeek | src/pages/Appoinments.jsx:35-81 | with nothing booked and today's start before 21:00, all seven days are shown with every step |
| SlotFacts.DropEmptyKeepsAll | src/pages/Appoinments.jsx:78-80 | when no bucket is empty, no day is dropped |
| SlotFacts.NineOClockWithTenBooked | src/pages/Appoinments.jsx:44-76 | at 09:00 with today's 10:00 booked, today offers 10:30 to 20:30, 21 slots |
| TimeLabel.Label | src/pages/Appoinments.jsx:55-58 | the label is eight characters: two digits, ':', two digits, ' ', then "AM" before noon and "PM" from noon on |
| TimeLabel.ParseLabelOfLabel | src/pages/Appoinments.jsx:55-58 | the label of a minute of the day reads back to that minute |
| TimeLabel.LabelInjective | src/pages/Appoinments.jsx:55-58 | two minutes of the day with the same label are equal |
| Decimal.Show | src/pages/Appoinments.jsx:60-63 | a number in a template literal is non-empty decimal digits without a leading zero |
| Decimal.ReadShow | src/pages/Appoinments.jsx:60-63 | a number's decimal text reads back to the number |
| Decimal.ShowRead | src/pages/Appoinments.jsx:60-63 | every canonical digit text (no leading zero except "0") is the template-literal text of the number it reads as |
| Decimal.ShowInjective | src/pages/Appoinments.jsx:60-63 | distinct numbers have distinct decimal text |
| Decimal.Pad2 | src/pages/Appoinments.jsx:55-58 | the two-digit field of a label is two digits whose value is the number |
| DateKey.Key | src/pages/Appoinments.jsx:60-63 | the key holds only decimal digits and underscores; that its fields are unpadded follows from ParseKeyOfKey, since the parser accepts only unpadded fields |
| DateKey.ParseKeyOfKey | src/pages/Appoinments.jsx:60-63 | the key day_month_year reads back to the day, the 1-based month and the year under a parser that rejects zero-padded fields |
| DateKey.ParseKeyExact | src/pages/Appoinments.jsx:60-63 | any text the parser accepts has a month of at least 1 and is exactly the key of the calendar day it reads (day, month - 1, year), so the parser and the key agree in both directions |
| DateKey.ZeroMonthRejected | src/pages/Appoinments.jsx:61 | a key with month field 0 is refused, since getMonth() + 1 is never 0 |
| DateKey.PaddedKeyRejected | src/pages/Appoinments.jsx:60-63 | a zero-padded key such as "05_6_2024" is not a key |
| DateKey.KeyInjective | src/pages/Appoinments.jsx:60-63 | distinct calendar days have distinct keys |
| DateKey.KeyMonthRange | src/pages/Appoinments.jsx:61 | the key of a valid date carries a month in 1..12 and a day in 1..31 |
| Common.TransportText | src/pages/Appoinments.jsx:119 | the shown failure text is the backend's message when present, else the error's own text |
| Common.SplitFirst | src/pages/MyProfile.jsx:70 | splitting at the first separator gives the text before and after it, and fails iff the separator is absent |
| Common.SplitFirstOf | src/pages/MyProfile.jsx:70 | text without the separator, then the separator, then anything, splits back into those parts |
| Booking.DecideBooking | src/pages/Appoinments.jsx:86-106 | no token redirects to /login; a token with no selected time warns; otherwise the booking is posted with the doctor, the selected time and the key of the selected day's first slot, or fails when that day has no slot |
| Booking.AfterBooking | src/pages/Appoinments.jsx:110-120 | success shows the message, refreshes the doctors and moves to /my-appointment; a failure only shows the backend's message or the error's text |
| BookingFacts.PostedDateIsPickedSlotDate | src/pages/Appoinments.jsx:97-102 | booking a slot picked from the grid posts that slot's own date key |
| BookingFacts.LabelNotCheckedAgainstDay | src/pages/Appoinments.jsx:92-106 | a non-empty time is posted even when the selected day does not offer it |
| Json.ReadEscapedChar | src/pages/MyProfile.jsx:39 | every escaped character reads back to the character |
| Json.Quote | src/pages/MyProfile.jsx:39 | a stringified string is a string literal that reads back to the string, with nothing after its closing quote |
| Json.ReadQuoted | src/pages/MyProfile.jsx:39 | a stringified string reads back to the string, whatever text follows it |
| Json.ReadMemberOf | src/pages/MyProfile.jsx:39 | a stringified key-value member reads back to the pair |
| Json.ReadMembersOf | src/pages/MyProfile.jsx:39 | a non-empty member list reads back to its entries |
| Json.Object | src/pages/MyProfile.jsx:39 | a stringified object of strings reads back to the same entries in the same order |
| Json.ObjectInjective | src/pages/MyProfile.jsx:39 | distinct address objects stringify to distinct text |
| ProfilePage.SafeText | src/pages/MyProfile.jsx:31-32 | non-empty text other than "Not Selected" is shown as is; anything else is shown as "Not Provided"; the result is never empty nor "Not Selected" |
| ProfilePage.SafeTextIdempotent | src/pages/MyProfile.jsx:31-32 | applying safeText twice equals applying it once; "Not Provided" is shown iff the value is missing, empty, "Not Selected" or "Not Provided" |
| ProfilePage.ProfileImageSrc | src/pages/MyProfile.jsx:24-29 | the source is the stored image iff it is a non-empty string, else the default avatar |
| ProfilePage.ImageSrcSurvivesEdits | src/pages/MyProfile.jsx:24-29 | typing into any input other than one named "image" leaves the image source unchanged |
| ProfilePage.Lookup | src/pages/MyProfile.jsx:131 | a key is found iff it is one of the entries' keys, and the value found is that of the first entry with the key |
| ProfilePage.SetEntry | src/pages/MyProfile.jsx:73 | setting a key adds at most one entry; that the key then holds the new value and every other key keeps its value is stated by ProfilePage.SetEntryLookup, and the key order by ProfilePage.SetEntryKeys |
| ProfilePage.SetEntryLookup | src/pages/MyProfile.jsx:73 | after spreading an object and setting a key, that key has the new value and every other key keeps its value |
| ProfilePage.SetEntryLookupAll | src/pages/MyProfile.jsx:73 | the same for all keys at once |
| ProfilePage.SetEntryKeys | src/pages/MyProfile.jsx:73 | setting a key keeps the key order; a key not yet present is added last |
| ProfilePage.SetEntryKeepsKeysDistinct | src/pages/MyProfile.jsx:73 | setting a key never creates a duplicate key |
| ProfilePage.SpreadOf | src/pages/MyProfile.jsx:73 | spreading a missing or null value gives no entries, spreading an object its entries, spreading a string one entry per character, keyed by the character's index |
| ProfilePage.AddressKey | src/pages/MyProfile.jsx:69-70 | an address key exists iff the name starts with "address_", and it contains no underscore |
| ProfilePage.AddressKeyOf | src/pages/MyProfile.jsx:69-70 | "address_K" and "address_K_suffix" both give the key K |
| ProfilePage.HandleChange | src/pages/MyProfile.jsx:67-78 | an address input sets only that key of the address and keeps every other field and address key; any other input sets exactly that field and keeps every other field |
| ProfilePage.EditsCommute | src/pages/MyProfile.jsx:127-141 | editing line 1 and then line 2 keeps both typed values |
| ProfilePage.FormText | src/pages/MyProfile.jsx:37-41 | a form value is the text itself, "undefined" for a missing field, "null" for a null field, "[object Object]" for an object |
| ProfilePage.StringifyField | src/pages/MyProfile.jsx:39 | the posted address reads back to the address object's entries, or to the text when it is a string; a missing address is posted as "undefined" and a null one as "null" |
| ProfilePage.SavePayload | src/pages/MyProfile.jsx:36-41 | the form has exactly name, phone, address, dob and gender, in that order; phone is "" when missing, null or empty; the address reads back to the address object |
| ProfilePage.SavedAddressCarriesEdit | src/pages/MyProfile.jsx:36-41 | after an address input change, the saved address reads back with the typed text under its key |
| ProfilePage.Render | src/pages/MyProfile.jsx:16-22 | the page shows its local copy once it has one; before that it shows "Loading profile..." iff a shared profile exists |
| ProfilePage.Step | src/pages/MyProfile.jsx:34-78 | a new shared profile replaces the local copy; Edit only enters edit mode; Save posts the local copy; a save success leaves edit mode with a notice and a reload; a failure stays in edit mode and shows the backend's message for success:false, the error's own text for a thrown error |
| ProfilePage.EditModeTransitions | src/pages/MyProfile.jsx:188-202 | edit mode is entered iff Edit is pressed on a shown profile, and left iff a save succeeds |
| ProfilePage.RunKeepsCoherent | src/pages/MyProfile.jsx:9-22 | along any events the page is in edit mode only while it shows a profile, and never loses a shown profile |
| ProfilePage.RunEffects | src/pages/MyProfile.jsx:54-57 | along any events a reload is asked for exactly on successful save replies |
| AppState.Normalize | src/context/AppContext.jsx:13 | an empty or missing token becomes none; any other value is kept |
| AppState.ProfileFetches | src/context/AppContext.jsx:81-85 | the token effect fetches the profile iff the token is truthy |
| AppState.Mount | src/context/AppContext.jsx:77-85 | mounting reads the token from storage, leaves storage mirroring it, fetches the doctors once and the profile iff there is a token |
| AppState.SetToken | src/context/AppContext.jsx:16-19 | the same token changes nothing; a new token is mirrored into storage and fetches the profile iff truthy; doctors and profile are kept |
| AppState.LoadProfile | src/context/AppContext.jsx:34-52 | without a token the profile is cleared and nothing is fetched; with one the profile is fetched with that token |
| AppState.ProfileReply | src/context/AppContext.jsx:53-62 | success stores the profile; success:false clears it silently; an error clears it with an error notice |
| AppState.DoctorsReply | src/context/AppContext.jsx:21-32 | success replaces the list; any failure keeps it and raises an error notice |
| AppState.TokenSurvivesReload | src/context/AppContext.jsx:13-19 | after any token change, a fresh mount starts from the same token |
| AppState.RunKeepsSynced | src/context/AppContext.jsx:16-19 | along any events storage keeps mirroring the token and every profile fetch carries a non-empty token |
| AppState.LogoutKeepsProfileUntilReload | src/context/AppContext.jsx:36-39 | clearing the token keeps the cached profile and fetches nothing; a reload then clears it |
| Flows.SaveThenReloadShowsServerProfile | src/pages/MyProfile.jsx:54-57 | after a successful save with a token, the reload fetches the profile and the page then shows the server's profile in view mode |
| Flows.SignedOutReloadKeepsLocalCopy | src/pages/MyProfile.jsx:12-14 | without a token, the reload clears the shared profile but the page keeps its local copy |
| Flows.BookedLabelLeavesGrid | src/pages/Appoinments.jsx:110-113 | after a successful booking and the refreshed list, a label booked on a day is not offered on that day |

## Left out

- Rendering: JSX, CSS and the related-doctors list are presentation only.
- Backend calls: HTTP requests, headers and URLs become abstract outcomes. The same holds for toasts and navigation, which are returned as values, and for console output.
- Locale formatting: `toLocaleTimeString` is the `labelOf` parameter. The concrete label uses a plain space before AM/PM, where some runtimes print a narrow no-break space.
- Calendar arithmetic: `Date` month and year rollover and daylight-saving time are left out. The seven days come as input.
- Seconds and milliseconds: a start on a half hour makes them irrelevant to the comparison with 21:00.
- Concurrency: async ordering, overlapping requests and replies that arrive out of order.
- Booking.DecideBooking: the text of the error thrown when the selected day has no slot is not modelled. It is only known that a notice is shown and nothing is posted.
- DateKey.Key: its own contract states only the key's alphabet. The round trip, and with it the absence of padding, is the lemma DateKey.ParseKeyOfKey, because a parser in the function's own contract would be unfolded at every use of a key.
- Slots.Keep: its own contract only bounds the bucket's size. Which slots it keeps is the lemmas Slots.KeepSound and Slots.KeepComplete.
- Slots.DropEmpty: its own contract bounds the count and excludes empty buckets. Which buckets it keeps is the lemma Slots.DropEmptyDays.
- Slots.WeekGrid: its own contract bounds the count and excludes empty buckets. Which days are shown is the lemma Slots.GridShape.
- ProfilePage.SetEntry: its own contract only bounds the entry count. The values and key order after a set are the lemmas SetEntryLookup and SetEntryKeys.
- ProfilePage.SetEntryKeys: keys that look like array indices are kept in insertion order. JavaScript enumerates such keys first, in ascending order. The page's own inputs (line1, line2) are not of that kind.
- ProfilePage.Render: a profile field holding an object, which React cannot render as text, is not modelled as an error.
- Json: the reader accepts only the compact text `JSON.stringify` produces for strings and objects of strings. Characters outside the Basic Multilingual Plane are written literally, by the model as by `JSON.stringify`. Only lone surrogates are left out, because Dafny's `char` is a Unicode scalar value and cannot hold one.
- ProfilePage.SpreadOf: a string spreads to one entry per Unicode scalar value. JavaScript spreads a string by UTF-16 code units, so a character outside the Basic Multilingual Plane gives one entry here and two in JavaScript. The page spreads only the address object, so this affects only a profile whose address is stored as a string.
- AppState: a reply whose `success` is true but which carries no profile or list is not distinguished from one that does.

=== FILE: app_state.dfy ===
/** The shared application state the context provider holds: the session
    token and its copy in the browser's storage, the doctor directory and the
    signed-in user's profile, with the effects that keep them up to date. */
module AppState {
  import opened Common
  import opened Records

  /** `stored` is the browser's saved "token" entry, None when absent. */
  datatype Store = Store(token: Option<string>, stored: Option<string>, doctors: seq<Doctor>, userData: Option<Profile>)

  /** The backend calls the provider starts. */
  datatype Request = FetchDoctors | FetchProfile(token: string)

  /** `x || null` on an optional string: an empty string becomes absent. */
  function Normalize(t: Option<string>): (n: Option<string>)
    ensures Truthy(t) ==> n == t
    ensures !Truthy(t) ==> n == None
  {
    if Truthy(t) then t else None
  }

  /** The storage holds the token exactly when the token is truthy. */
  predicate Synced(s: Store) {
    s.stored == Normalize(s.token)
  }

  /** The requests the token effect starts for a token value. */
  function ProfileFetches(token: Option<string>): (rs: seq<Request>)
    ensures Truthy(token) ==> rs == [FetchProfile(token.value)]
    ensures !Truthy(token) ==> rs == []
  {
    if Truthy(token) then [FetchProfile(token.value)] else []
  }

  /** Mounting the provider: the token is read from storage (an empty entry
      counts as none), no doctors and no profile yet; then the effects run in
      the order they are declared: the storage sync, the doctor-list fetch,
      and, with a token, the profile fetch. */
  function Mount(stored: Option<string>): (r: (Store, seq<Request>))
    ensures Synced(r.0)
    ensures r.0.token == Normalize(stored) && r.0.stored == Normalize(stored)
    ensures r.0.doctors == [] && r.0.userData.None?
    ensures 0 < |r.1| && r.1[0] == FetchDoctors && r.1[1..] == ProfileFetches(stored)
  {
    var token := Normalize(stored);
    (Store(token, token, [], None), [FetchDoctors] + ProfileFetches(token))
  }

  /** `setToken(t)`: setting the value the token already has changes nothing
      and re-runs no effect. Otherwise the storage follows the new token and
      a truthy token starts a profile fetch. The profile is NOT cleared when
      the token is cleared. */
  function SetToken(s: Store, t: Option<string>): (r: (Store, seq<Request>))
    ensures t == s.token ==> r == (s, [])
    ensures r.0.token == t
    ensures t != s.token ==> r.0.stored == Normalize(t) && r.1 == ProfileFetches(t)
    ensures r.0.doctors == s.doctors && r.0.userData == s.userData
  {
    if t == s.token then (s, [])
    else (s.(token := t, stored := Normalize(t)), ProfileFetches(t))
  }

  /** `loadUserProfileData()`: without a token the profile is cleared and
      nothing is fetched; with one the profile is fetched. */
  function LoadProfile(s: Store): (r: (Store, seq<Request>))
    ensures !Truthy(s.token) ==> r == (s.(userData := None), [])
    ensures Truthy(s.token) ==> r == (s, [FetchProfile(s.token.value)])
  {
    if !Truthy(s.token) then (s.(userData := None), []) else (s, ProfileFetches(s.token))
  }

  /** The profile reply: success stores the profile; a `success: false`
      reply clears it silently; a thrown error clears it and raises an error
      notice with the error's own text. */
  function ProfileReply(s: Store, reply: Reply<Profile>): (r: (Store, Option<Notice>))
    ensures r.0.token == s.token && r.0.stored == s.stored && r.0.doctors == s.doctors
    ensures r.0.userData.Some? <==> reply.Ok?
    ensures reply.Ok? ==> r.0.userData == Some(reply.payload) && r.1.None?
    ensures reply.AppFail? ==> r.1.None?
    ensures reply.Transport? ==> r.1 == Some(Error(reply.errorMessage))
  {
    match reply
    case Ok(p, _) => (s.(userData := Some(p)), None)
    case AppFail(_) => (s.(userData := None), None)
    case Transport(_, em) => (s.(userData := None), Some(Error(em)))
  }

  /** The doctor-list reply: success replaces the list; any failure keeps
      the list and raises an error notice (the backend's message, or the
      thrown error's own text). */
  function DoctorsReply(s: Store, reply: Reply<seq<Doctor>>): (r: (Store, Option<Notice>))
    ensures r.0.token == s.token && r.0.stored == s.stored && r.0.userData == s.userData
    ensures reply.Ok? ==> r.0.doctors == reply.payload && r.1.None?
    ensures !reply.Ok? ==> r.0 == s && r.1.Some? && r.1.value.Error?
    ensures reply.AppFail? ==> r.1 == Some(Error(reply.message))
    ensures reply.Transport? ==> r.1 == Some(Error(reply.errorMessage))
  {
    match reply
    case Ok(ds, _) => (s.(doctors := ds), None)
    case AppFail(msg) => (s, Some(Error(msg)))
    case Transport(_, em) => (s, Some(Error(em)))
  }

  /** The saved token is what the next mount starts from: after any change
      of a synced token, a fresh mount sees the same session (an empty token
      as none). */
  lemma TokenSurvivesReload(s: Store, t: Option<string>)
    requires Synced(s)
    ensures Mount(SetToken(s, t).0.stored).0.token == Normalize(t)
  {
  }

  // ---------------------------------------------------------------------
  // Sequences of events

  datatype Event =
    | SetTokenTo(t: Option<string>)
    | LoadProfileCall
    | DoctorsArrived(doctorsReply: Reply<seq<Doctor>>)
    | ProfileArrived(profileReply: Reply<Profile>)

  function Apply(s: Store, ev: Event): (r: (Store, seq<Request>))
  {
    match ev
    case SetTokenTo(t) => SetToken(s, t)
    case LoadProfileCall => LoadProfile(s)
    case DoctorsArrived(reply) => (DoctorsReply(s, reply).0, [])
    case ProfileArrived(reply) => (ProfileReply(s, reply).0, [])
  }

  /** The state after a sequence of events and the requests started on the
      way, in order. */
  function Run(s: Store, evs: seq<Event>): (r: (Store, seq<Request>))
    decreases |evs|
  {
    if |evs| == 0 then (s, [])
    else
      var (s1, rs) := Apply(s, evs[0]);
      var (s2, more) := Run(s1, evs[1..]);
      (s2, rs + more)
  }

  /** Every profile fetch carries a non-empty token. */
  predicate FetchesHaveToken(rs: seq<Request>) {
    forall i :: 0 <= i < |rs| ==> rs[i].FetchProfile? ==> rs[i].token != ""
  }

  lemma ConcatFetchesHaveToken(a: seq<Request>, b: seq<Request>)
    requires FetchesHaveToken(a) && FetchesHaveToken(b)
    ensures FetchesHaveToken(a + b)
  {
    forall i | 0 <= i < |a + b| && (a + b)[i].FetchProfile? ensures (a + b)[i].token != "" {
      if i >= |a| {
        assert (a + b)[i] == b[i - |a|];
      }
    }
  }

  /** From a mount onwards the storage always mirrors the token, and no
      profile is ever fetched without a token. */
  lemma {:induction false} RunKeepsSynced(s: Store, evs: seq<Event>)
    requires Synced(s)
    ensures Synced(Run(s, evs).0)
    ensures FetchesHaveToken(Run(s, evs).1)
    decreases |evs|
  {
    if |evs| > 0 {
      var (s1, rs) := Apply(s, evs[0]);
      assert Synced(s1);
      assert FetchesHaveToken(rs);
      RunKeepsSynced(s1, evs[1..]);
      ConcatFetchesHaveToken(rs, Run(s1, evs[1..]).1);
    }
  }

  /** Clearing the token leaves the previous user's profile in place until
      something reloads it; reloading then clears it. */
  lemma LogoutKeepsProfileUntilReload(s: Store)
    requires Truthy(s.token) && s.userData.Some?
    ensures SetToken(s, None).0.userData == s.userData
    ensures SetToken(s, None).1 == []
    ensures LoadProfile(SetToken(s, None).0).0.userData.None?
  {
  }
}

=== FILE: booking.dfy ===
/** The appointment page's "Book an appointment" action: what it does before
    any request (send an anonymous user to the login page, refuse when no
    time is selected, or post the booking), and how it reacts to the reply. */
module Booking {
  import opened Common
  import opened DateKey
  import opened Slots

  const LoginPath := "/login"
  const AppointmentsPath := "/my-appointment"
  const LoginNotice := "Login to Book Appointment"
  const SelectNotice := "Please select a slot"

  /** The body of `POST /api/user/book-appointment`. */
  datatype BookingRequest = BookingRequest(docId: string, slotDate: string, slotTime: string)

  /** What pressing the button does before any reply arrives.
      - Redirect: warn and navigate, no request.
      - Warn: warn, no request.
      - Post: send the request.
      - Fault: the selected day index has no first slot, so reading its date
        throws; the handler's catch shows the thrown error's text and no
        request is sent. */
  datatype BookingAction =
    | Redirect(notice: Notice, path: string)
    | Warn(notice: Notice)
    | Post(request: BookingRequest)
    | Fault

  /** `bookAppointment` up to the request: `token` is the session token,
      `slotTime` the selected label ("" when none), `slotIndex` the selected
      day bucket of `docSlots`. The date is taken from the selected bucket's
      first slot. */
  function DecideBooking(token: Option<string>, slotTime: string, docSlots: Grid, slotIndex: nat, docId: string): (a: BookingAction)
    ensures a.Redirect? <==> !Truthy(token)
    ensures a.Redirect? ==> a.path == LoginPath && a.notice.Warning?
    ensures a.Warn? <==> Truthy(token) && slotTime == ""
    ensures a.Fault? <==> Truthy(token) && slotTime != "" && !(slotIndex < |docSlots| && 0 < |docSlots[slotIndex]|)
    ensures a.Post? ==>
      && slotIndex < |docSlots| && 0 < |docSlots[slotIndex]|
      && a.request.docId == docId
      && a.request.slotTime == slotTime && slotTime != ""
      && a.request.slotDate == Key(docSlots[slotIndex][0].date)
  {
    if !Truthy(token) then Redirect(Warning(LoginNotice), LoginPath)
    else if slotTime == "" then Warn(Warning(SelectNotice))
    else if slotIndex < |docSlots| && 0 < |docSlots[slotIndex]| then
      Post(BookingRequest(docId, Key(docSlots[slotIndex][0].date), slotTime))
    else Fault
  }

  /** What the page does once the booking reply arrives. */
  datatype BookingOutcome = BookingOutcome(notice: Notice, refreshDoctors: bool, navigateTo: Option<string>)

  /** On success: a success notice with the backend's message, a refresh of
      the doctor list (so the new booking shows up in its booked map) and a
      move to the appointments page. On any failure: one error notice, the
      backend's message when the reply carries one, else the error's text;
      nothing else happens. */
  function AfterBooking(reply: Reply<()>): (o: BookingOutcome)
    ensures o.refreshDoctors <==> reply.Ok?
    ensures o.navigateTo.Some? <==> reply.Ok?
    ensures reply.Ok? ==> o.notice == Info(reply.message) && o.navigateTo == Some(AppointmentsPath)
    ensures reply.AppFail? ==> o.notice == Error(reply.message)
    ensures reply.Transport? ==> o.notice == Error(TransportText(reply.responseMessage, reply.errorMessage))
  {
    match reply
    case Ok(_, msg) => BookingOutcome(Info(msg), true, Some(AppointmentsPath))
    case AppFail(msg) => BookingOutcome(Error(msg), false, None)
    case Transport(rm, em) => BookingOutcome(Error(TransportText(rm, em)), false, None)
  }
}

/** How the booking action relates to the slot grid the page generated. */
module BookingFacts {
  import opened Common
  import opened Records
  import opened DateKey
  import opened Slots
  import opened SlotFacts
  import opened Booking

  /** Booking from a generated grid posts the calendar day of the slot the
      user picked: every slot of a bucket shares the bucket's date key, so
      reading the date off the bucket's first slot gives the picked slot's
      key. */
  lemma PostedDateIsPickedSlotDate(
    week: seq<CalendarDate>, now: Clock, doc: Doctor, labelOf: Labeller,
    token: Option<string>, slotIndex: nat, picked: Slot)
    requires |week| == DaysShown
    requires Truthy(token)
    requires slotIndex < |WeekGrid(week, now, doc, labelOf)|
    requires picked in WeekGrid(week, now, doc, labelOf)[slotIndex]
    ensures DecideBooking(token, picked.time, WeekGrid(week, now, doc, labelOf), slotIndex, doc.id) ==
      (if picked.time == "" then Warn(Warning(SelectNotice))
       else Post(BookingRequest(doc.id, Key(picked.date), picked.time)))
  {
    var g := WeekGrid(week, now, doc, labelOf);
    GridShape(week, now, doc, labelOf);
    var o := ShownDays(DayBuckets(week, now, doc, labelOf), 0)[slotIndex];
    BucketSharesKey(o, week, now, doc, labelOf);
    var b := g[slotIndex];
    var i :| 0 <= i < |b| && b[i] == picked;
  }

  /** The action does not check the selected label against the selected
      day: any non-empty label is posted with the selected day's date, even
      one that day does not offer (a label picked on another day stays
      selected when the user switches days). */
  lemma LabelNotCheckedAgainstDay(token: Option<string>, docSlots: Grid, slotIndex: nat, docId: string, slotTime: string)
    requires Truthy(token) && slotIndex < |docSlots| && 0 < |docSlots[slotIndex]|
    requires slotTime != ""
    requires forall s :: s in docSlots[slotIndex] ==> s.time != slotTime
    ensures DecideBooking(token, slotTime, docSlots, slotIndex, docId).Post?
  {
  }
}

=== FILE: common.dfy ===
/** Vocabulary shared by the pages and the context provider: optional values,
    JavaScript truthiness of optional strings, the three outcomes of a backend
    call, the transient notices ("toasts") the client raises, and splitting
    text at a separator. */
module Common {

  datatype Option<+T> = None | Some(value: T)

  /** `if (x)` on a value that is either absent (null/undefined) or a string:
      only a non-empty string is truthy. */
  predicate Truthy(x: Option<string>) {
    x.Some? && x.value != ""
  }

  /** The outcome of one backend call, as seen by the caller.
      - Ok: the response body carried `success: true`.
      - AppFail: the body carried `success: false` with a message.
      - Transport: the call threw (network error, non-2xx status); the error
        may carry a response body with a message, and always has its own
        message text. */
  datatype Reply<+T> =
    | Ok(payload: T, message: string)
    | AppFail(message: string)
    | Transport(responseMessage: Option<string>, errorMessage: string)

  /** A transient user-visible notification. */
  datatype Notice = Info(text: string) | Warning(text: string) | Error(text: string)

  /** `error.response?.data?.message || error.message`: the backend's message
      when the thrown error carries a non-empty one, else the error's own text. */
  function TransportText(responseMessage: Option<string>, errorMessage: string): (t: string)
    ensures Truthy(responseMessage) ==> t == responseMessage.value
    ensures !Truthy(responseMessage) ==> t == errorMessage
  {
    if Truthy(responseMessage) then responseMessage.value else errorMessage
  }

  /** Index of the first occurrence of `c` in `s`. */
  function IndexOf(s: string, c: char): (r: Option<nat>)
    ensures r.Some? ==> r.value < |s| && s[r.value] == c
    ensures r.Some? ==> forall j :: 0 <= j < r.value ==> s[j] != c
    ensures r.None? ==> forall j :: 0 <= j < |s| ==> s[j] != c
  {
    if |s| == 0 then None
    else if s[0] == c then Some(0)
    else match IndexOf(s[1..], c)
      case None => None
      case Some(i) => Some(i + 1)
  }

  /** Splits `s` at its first `c`: the text before it and the text after it. */
  function SplitFirst(s: string, c: char): (r: Option<(string, string)>)
    ensures r.Some? ==> s == r.value.0 + [c] + r.value.1 && c !in r.value.0
    ensures r.None? <==> c !in s
  {
    match IndexOf(s, c)
    case None => None
    case Some(i) => Some((s[..i], s[i + 1..]))
  }

  lemma SplitFirstOf(a: string, c: char, b: string)
    requires c !in a
    ensures SplitFirst(a + [c] + b, c) == Some((a, b))
  {
    var s := a + [c] + b;
    assert s[|a|] == c;
    assert forall j :: 0 <= j < |a| ==> s[j] == a[j];
    assert s[..|a|] == a;
    assert s[|a| + 1..] == b;
  }
}

=== FILE: date_key.dfy ===
/** The key under which the backend files a doctor's booked times for one
    calendar day: `${day}_${month}_${year}` with the 1-based month and no
    zero-padding (e.g. "15_6_2024"). */
module DateKey {
  import opened Common
  import opened Decimal

  /** A calendar day as a JavaScript Date reports it: getDate() (1..31),
      getMonth() (0..11, zero-based) and getFullYear(). */
  datatype CalendarDate = CalendarDate(day: nat, month0: nat, year: nat)

  predicate ValidDate(d: CalendarDate) {
    1 <= d.day <= 31 && d.month0 < 12
  }

  /** The key of a calendar day: decimal digits and underscores only, with
      no padding or other separator (ParseKeyOfKey reads it back). */
  function Key(d: CalendarDate): (k: string)
    ensures forall i :: 0 <= i < |k| ==> IsDigit(k[i]) || k[i] == '_'
  {
    Show(d.day) + "_" + Show(d.month0 + 1) + "_" + Show(d.year)
  }

  /** Reads a date key back into (day, month, year), the month 1-based.
      Each of the three fields must be written as `${n}` writes a number, so
      a zero-padded field ("05") is rejected, and the month must be at least
      1, since getMonth() + 1 is. */
  function ParseKey(k: string): (r: Option<(nat, nat, nat)>)
  {
    match SplitFirst(k, '_')
    case None => None
    case Some((d, rest)) =>
      match SplitFirst(rest, '_')
      case None => None
      case Some((m, y)) =>
        if !Canonical(d) || !Canonical(m) || !Canonical(y) || Read(m) == 0 then None
        else Some((Read(d), Read(m), Read(y)))
  }

  lemma ShowHasNoSeparator(n: nat)
    ensures '_' !in Show(n)
  {
  }

  /** The key reads back to the day, the 1-based month and the year. */
  lemma ParseKeyOfKey(d: CalendarDate)
    ensures ParseKey(Key(d)) == Some((d.day, d.month0 + 1, d.year))
  {
    var ds, ms, ys := Show(d.day), Show(d.month0 + 1), Show(d.year);
    ShowHasNoSeparator(d.day);
    ShowHasNoSeparator(d.month0 + 1);
    assert Key(d) == ds + ['_'] + (ms + ['_'] + ys);
    SplitFirstOf(ds, '_', ms + ['_'] + ys);
    SplitFirstOf(ms, '_', ys);
    ReadShow(d.day);
    ReadShow(d.month0 + 1);
    ReadShow(d.year);
  }

  /** The fields a key parses into, and that each is canonical. */
  lemma ParseKeyFields(k: string) returns (d: string, m: string, y: string)
    requires ParseKey(k).Some?
    ensures k == d + ['_'] + (m + ['_'] + y)
    ensures Canonical(d) && Canonical(m) && Canonical(y)
    ensures ParseKey(k).value == (Read(d), Read(m), Read(y))
  {
    var rest;
    d, rest := SplitFirst(k, '_').value.0, SplitFirst(k, '_').value.1;
    m, y := SplitFirst(rest, '_').value.0, SplitFirst(rest, '_').value.1;
  }

  lemma Join(a: string, b: string, c: string)
    ensures a + ['_'] + (b + ['_'] + c) == a + "_" + b + "_" + c
  {
  }

  /** The parser accepts exactly the keys `Key` writes: a text that parses
      is the key of the calendar day it parses to. */
  lemma ParseKeyExact(k: string)
    requires ParseKey(k).Some?
    ensures 1 <= ParseKey(k).value.1
    ensures k == Show(ParseKey(k).value.0) + "_" + Show(ParseKey(k).value.1) + "_" + Show(ParseKey(k).value.2)
    ensures k == Key(CalendarDate(ParseKey(k).value.0, ParseKey(k).value.1 - 1, ParseKey(k).value.2))
  {
    var d, m, y := ParseKeyFields(k);
    ShowRead(d);
    ShowRead(m);
    ShowRead(y);
    Join(d, m, y);
  }

  /** A zero-padded day is not a key. */
  lemma PaddedKeyRejected()
    ensures ParseKey("05_6_2024") == None
  {
    var k := "05_6_2024";
    assert k == "05" + ['_'] + "6_2024";
    SplitFirstOf("05", '_', "6_2024");
  }

  /** A month field of 0 is not a key, since no month is written as 0. */
  lemma ZeroMonthRejected()
    ensures ParseKey("5_0_2024") == None
  {
  }

  /** Distinct calendar days are filed under distinct keys. */
  lemma KeyInjective(a: CalendarDate, b: CalendarDate)
    requires Key(a) == Key(b)
    ensures a == b
  {
    ParseKeyOfKey(a);
    ParseKeyOfKey(b);
  }

  /** The month field of a valid date's key is 1..12. */
  lemma KeyMonthRange(d: CalendarDate)
    requires ValidDate(d)
    ensures ParseKey(Key(d)).Some?
    ensures 1 <= ParseKey(Key(d)).value.1 <= 12
    ensures 1 <= ParseKey(Key(d)).value.0 <= 31
  {
    ParseKeyOfKey(d);
  }
}

=== FILE: decimal.dfy ===
/** Decimal text of natural numbers, as JavaScript's template literals render
    them (`${n}`): no sign, no padding, no leading zeros; and the two-digit
    zero-padded form the time formatter uses. */
module Decimal {

  predicate IsDigit(c: char) {
    '0' <= c <= '9'
  }

  predicate AllDigits(s: string) {
    forall i :: 0 <= i < |s| ==> IsDigit(s[i])
  }

  function DigitChar(d: nat): (c: char)
    requires d < 10
    ensures IsDigit(c)
  {
    (d + '0' as int) as char
  }

  function DigitValue(c: char): (d: nat)
    requires IsDigit(c)
    ensures d < 10
  {
    c as int - '0' as int
  }

  lemma DigitRoundTrip(d: nat)
    requires d < 10
    ensures DigitValue(DigitChar(d)) == d
  {
  }

  /** Decimal text as `${n}` writes it: non-empty digits, with a leading
      zero only in "0" itself. */
  predicate Canonical(s: string) {
    0 < |s| && AllDigits(s) && (s[0] == '0' ==> |s| == 1)
  }

  /** `${n}` for a natural number. */
  function Show(n: nat): (s: string)
    ensures 0 < |s| && AllDigits(s)
    ensures s[0] == '0' ==> n == 0 && |s| == 1
    ensures Canonical(s)
  {
    if n < 10 then [DigitChar(n)] else Show(n / 10) + [DigitChar(n % 10)]
  }

  /** The value of a string of decimal digits (the empty string reads as 0). */
  function Read(s: string): nat
    requires AllDigits(s)
  {
    if |s| == 0 then 0 else Read(s[..|s| - 1]) * 10 + DigitValue(s[|s| - 1])
  }

  lemma {:induction false} ReadShow(n: nat)
    ensures Read(Show(n)) == n
  {
    var s := Show(n);
    if n < 10 {
      DigitRoundTrip(n);
    } else {
      assert s[..|s| - 1] == Show(n / 10);
      ReadShow(n / 10);
      DigitRoundTrip(n % 10);
    }
  }

  /** Digits that do not start with '0' read as a positive number. */
  lemma {:induction false} ReadPositive(s: string)
    requires 0 < |s| && AllDigits(s) && s[0] != '0'
    ensures 0 < Read(s)
    decreases |s|
  {
    if |s| > 1 {
      ReadPositive(s[..|s| - 1]);
    }
  }

  /** Canonical text is the `${n}` of the number it reads as, so `Show`
      produces exactly the canonical texts. */
  lemma {:induction false} ShowRead(s: string)
    requires Canonical(s)
    ensures Show(Read(s)) == s
    decreases |s|
  {
    var last := s[|s| - 1];
    var d := DigitValue(last);
    assert DigitChar(d) == last;
    if |s| > 1 {
      var p := s[..|s| - 1];
      assert p[0] == s[0];
      ReadPositive(p);
      ShowRead(p);
      var n := Read(s);
      assert n == Read(p) * 10 + d;
      assert n / 10 == Read(p) && n % 10 == d;
      assert s == p + [last];
    }
  }

  /** Distinct numbers render as distinct text. */
  lemma ShowInjective(a: nat, b: nat)
    requires Show(a) == Show(b)
    ensures a == b
  {
    ReadShow(a);
    ReadShow(b);
  }

  /** The `2-digit` rendering of a number below 100: always two digits,
      zero-padded. */
  function Pad2(n: nat): (s: string)
    requires n < 100
    ensures |s| == 2 && AllDigits(s)
    ensures DigitValue(s[0]) * 10 + DigitValue(s[1]) == n
  {
    DigitRoundTrip(n / 10);
    DigitRoundTrip(n % 10);
    [DigitChar(n / 10), DigitChar(n % 10)]
  }
}

=== FILE: flows.dfy ===
/** How the pages and the shared state work together over a round trip to
    the backend. */
module Flows {
  import opened Common
  import opened Records
  import opened DateKey
  import opened Slots
  import opened SlotFacts
  import Booking
  import ProfilePage
  import AppState

  /** A successful save leaves edit mode and asks for a reload; with a
      token the reload fetches the profile, and once the fetched profile
      arrives the page shows it, in view mode. */
  lemma SaveThenReloadShowsServerProfile(
    e: ProfilePage.Editor, s: AppState.Store, saveMsg: string, p: Profile, loadMsg: string)
    requires e.isEdit && e.local.Some?
    requires Truthy(s.token)
    ensures var (e1, fx) := ProfilePage.Step(e, ProfilePage.SaveReply(Ok((), saveMsg)));
      var (s1, rs) := AppState.LoadProfile(s);
      var s2 := AppState.ProfileReply(s1, Ok(p, loadMsg)).0;
      && fx.reload && !e1.isEdit
      && rs == [AppState.FetchProfile(s.token.value)]
      && ProfilePage.Step(e1, ProfilePage.UserDataChanged(s2.userData)).0 == ProfilePage.Editor(false, Some(p))
      && ProfilePage.Render(ProfilePage.Step(e1, ProfilePage.UserDataChanged(s2.userData)).0, s2.userData)
         == ProfilePage.Page(p, false)
  {
  }

  /** Without a token the reload clears the shared profile, but the page
      keeps showing its own last copy: an absent profile does not replace
      the local one. */
  lemma SignedOutReloadKeepsLocalCopy(e: ProfilePage.Editor, s: AppState.Store, saveMsg: string)
    requires e.isEdit && e.local.Some?
    requires !Truthy(s.token)
    ensures var e1 := ProfilePage.Step(e, ProfilePage.SaveReply(Ok((), saveMsg))).0;
      var s1 := AppState.LoadProfile(s).0;
      && s1.userData.None?
      && ProfilePage.Step(e1, ProfilePage.UserDataChanged(s1.userData)).0 == ProfilePage.Editor(false, e.local)
  {
  }

  /** After a successful booking the page refreshes the doctor list; once
      the new list arrives and the doctor's record lists a label as booked
      on a day, the regenerated grid offers no slot with that label on that
      day. */
  lemma BookedLabelLeavesGrid(
    s: AppState.Store, reply: Reply<()>, ds: seq<Doctor>, listMsg: string, docId: string, doc: Doctor,
    week: seq<CalendarDate>, now: Clock, labelOf: Labeller, current: Grid, day: CalendarDate, taken: string)
    requires reply.Ok?
    requires |week| == DaysShown
    requires FindDoctor(ds, docId) == Some(doc)
    requires taken in BookedOn(doc, Key(day))
    ensures Booking.AfterBooking(reply).refreshDoctors
    ensures var g := RefreshSlots(current, FindDoctor(AppState.DoctorsReply(s, Ok(ds, listMsg)).0.doctors, docId), week, now, labelOf);
      forall k: nat, slot: Slot :: k < |g| && slot in g[k] && slot.date == day ==> slot.time != taken
  {
    var g := WeekGrid(week, now, doc, labelOf);
    GridShape(week, now, doc, labelOf);
    var bs := DayBuckets(week, now, doc, labelOf);
    var os := ShownDays(bs, 0);
    forall k: nat, slot: Slot | k < |g| && slot in g[k] && slot.date == day
      ensures slot.time != taken
    {
      BucketMembership(os[k], week, now, doc, labelOf, slot);
    }
  }
}

=== FILE: json.dfy ===
/** `JSON.stringify` of a string and of an object whose values are strings
    (the profile's address), and a reader for that text. The reader accepts
    the compact form `JSON.stringify` produces (no whitespace, string values
    only); that it reads every serialized object back to the same entries
    shows the serialization loses nothing. */
module Json {
  import opened Common

  predicate IsHex(c: char) {
    '0' <= c <= '9' || 'a' <= c <= 'f' || 'A' <= c <= 'F'
  }

  /** Lower-case hex digit, as `JSON.stringify`'s \u escapes use. */
  function HexDigit(d: nat): (c: char)
    requires d < 16
    ensures IsHex(c)
  {
    if d < 10 then (d + '0' as int) as char else (d - 10 + 'a' as int) as char
  }

  function HexValue(c: char): (d: nat)
    requires IsHex(c)
    ensures d < 16
  {
    if c <= '9' then c as int - '0' as int
    else if c <= 'F' then c as int - 'A' as int + 10
    else c as int - 'a' as int + 10
  }

  lemma HexRoundTrip(d: nat)
    requires d < 16
    ensures HexValue(HexDigit(d)) == d
  {
  }

  /** The escape `JSON.stringify` writes for one character: the short forms
      for quote, backslash, backspace, form feed, newline, carriage return and
      tab; `\u00xx` for the other control characters; the character itself
      otherwise. */
  function EscapeChar(c: char): (e: string)
    ensures 0 < |e| && e[0] != '"'
  {
    if c == '"' then ['\\', '"']
    else if c == '\\' then ['\\', '\\']
    else if c == 8 as char then ['\\', 'b']
    else if c == 12 as char then ['\\', 'f']
    else if c == '\n' then ['\\', 'n']
    else if c == '\r' then ['\\', 'r']
    else if c == '\t' then ['\\', 't']
    else if (c as int) < 0x20 then ['\\', 'u', '0', '0', HexDigit(c as int / 16), HexDigit(c as int % 16)]
    else [c]
  }

  function EscapeAll(s: string): string {
    if |s| == 0 then [] else EscapeChar(s[0]) + EscapeAll(s[1..])
  }

  /** `JSON.stringify(s)` for a string `s`: a string literal that reads
      back to `s`, with nothing after its closing quote. */
  function Quote(s: string): (q: string)
    ensures |q| > 0 && q[0] == '"'
    ensures ReadString(q[1..]) == Some((s, []))
  {
    ReadQuotedBody(s, []);
    assert (['"'] + EscapeAll(s) + ['"'])[1..] == EscapeAll(s) + ['"'] + [];
    ['"'] + EscapeAll(s) + ['"']
  }

  /** `"key":"value"` */
  function Member(e: (string, string)): string {
    Quote(e.0) + [':'] + Quote(e.1)
  }

  function Members(entries: seq<(string, string)>): (m: string)
    ensures 0 < |entries| ==> 0 < |m|
  {
    if |entries| == 0 then []
    else if |entries| == 1 then Member(entries[0])
    else Member(entries[0]) + [','] + Members(entries[1..])
  }

  /** `JSON.stringify(o)` for an object whose entries, in enumeration order,
      are `entries`: it reads back to the same entries in the same order. */
  function Object(entries: seq<(string, string)>): (o: string)
    ensures ReadObject(o) == Some(entries)
  {
    var m := Members(entries);
    var o := ['{'] + m + ['}'];
    assert o[1..] == m + ['}'];
    assert 0 < |entries| ==> ReadMembers(m + ['}']) == Some(entries) by {
      if 0 < |entries| {
        ReadMembersOf(entries);
      }
    }
    o
  }

  // ---------------------------------------------------------------------
  // Reading the text back

  /** The value of four hex digits. */
  function Hex4(s: string): nat
    requires |s| == 4 && IsHex(s[0]) && IsHex(s[1]) && IsHex(s[2]) && IsHex(s[3])
  {
    ((HexValue(s[0]) * 16 + HexValue(s[1])) * 16 + HexValue(s[2])) * 16 + HexValue(s[3])
  }

  /** Reads one (possibly escaped) character of a string literal's body. */
  function ReadChar(s: string): (r: Option<(char, string)>)
    ensures r.Some? ==> |r.value.1| < |s|
  {
    if |s| == 0 || s[0] == '"' || (s[0] as int) < 0x20 then None
    else if s[0] != '\\' then Some((s[0], s[1..]))
    else if |s| < 2 then None
    else if s[1] == '"' then Some(('"', s[2..]))
    else if s[1] == '\\' then Some(('\\', s[2..]))
    else if s[1] == '/' then Some(('/', s[2..]))
    else if s[1] == 'b' then Some((8 as char, s[2..]))
    else if s[1] == 'f' then Some((12 as char, s[2..]))
    else if s[1] == 'n' then Some(('\n', s[2..]))
    else if s[1] == 'r' then Some(('\r', s[2..]))
    else if s[1] == 't' then Some(('\t', s[2..]))
    else if s[1] == 'u' && 6 <= |s| && IsHex(s[2]) && IsHex(s[3]) && IsHex(s[4]) && IsHex(s[5]) then
      var v := Hex4(s[2..6]);
      if v < 0xD800 || 0xE000 <= v then Some((v as char, s[6..])) else None
    else None
  }

  /** Reads a string literal's body up to and including its closing quote;
      returns the text and what follows the quote. */
  function ReadString(s: string): (r: Option<(string, string)>)
    ensures r.Some? ==> |r.value.1| < |s|
    decreases |s|
  {
    if |s| == 0 then None
    else if s[0] == '"' then Some(([], s[1..]))
    else match ReadChar(s)
      case None => None
      case Some((c, rest)) =>
        match ReadString(rest)
        case None => None
        case Some((t, after)) => Some(([c] + t, after))
  }

  /** Reads one `"key":"value"` member; returns the pair and what follows. */
  function ReadMember(s: string): (r: Option<((string, string), string)>)
    ensures r.Some? ==> |r.value.1| < |s|
  {
    if |s| == 0 || s[0] != '"' then None
    else match ReadString(s[1..])
      case None => None
      case Some((k, r1)) =>
        if |r1| < 2 || r1[0] != ':' || r1[1] != '"' then None
        else match ReadString(r1[2..])
          case None => None
          case Some((v, r2)) => Some(((k, v), r2))
  }

  /** Reads members separated by `,` up to and including the final `}`. */
  function ReadMembers(s: string): (r: Option<seq<(string, string)>>)
    decreases |s|
  {
    match ReadMember(s)
    case None => None
    case Some((e, rest)) =>
      if rest == ['}'] then Some([e])
      else if 0 < |rest| && rest[0] == ',' then
        match ReadMembers(rest[1..])
        case None => None
        case Some(more) => Some([e] + more)
      else None
  }

  function ReadObject(s: string): Option<seq<(string, string)>> {
    if |s| < 2 || s[0] != '{' then None
    else if s[1..] == ['}'] then Some([])
    else ReadMembers(s[1..])
  }

  // ---------------------------------------------------------------------
  // Round trips

  lemma ReadEscapedChar(c: char, rest: string)
    ensures ReadChar(EscapeChar(c) + rest) == Some((c, rest))
  {
    var s := EscapeChar(c) + rest;
    if (c as int) < 0x20 && c != 8 as char && c != 12 as char && c != '\n' && c != '\r' && c != '\t' {
      var hi, lo := c as int / 16, c as int % 16;
      HexRoundTrip(hi);
      HexRoundTrip(lo);
      assert s[2..6] == ['0', '0', HexDigit(hi), HexDigit(lo)];
      assert Hex4(s[2..6]) == c as int;
      assert s[6..] == rest;
    } else if |EscapeChar(c)| == 1 {
      assert s[1..] == rest;
    } else {
      assert s[2..] == rest;
    }
  }

  lemma {:induction false} ReadQuotedBody(x: string, rest: string)
    ensures ReadString(EscapeAll(x) + ['"'] + rest) == Some((x, rest))
    decreases |x|
  {
    var s := EscapeAll(x) + ['"'] + rest;
    if |x| == 0 {
      assert s == ['"'] + rest;
    } else {
      var tail := EscapeAll(x[1..]) + ['"'] + rest;
      assert s == EscapeChar(x[0]) + tail;
      ReadEscapedChar(x[0], tail);
      ReadQuotedBody(x[1..], rest);
      assert [x[0]] + x[1..] == x;
    }
  }

  /** `JSON.stringify` of a string reads back to the string. */
  lemma ReadQuoted(x: string, rest: string)
    ensures |Quote(x) + rest| > 0 && (Quote(x) + rest)[0] == '"'
    ensures ReadString((Quote(x) + rest)[1..]) == Some((x, rest))
  {
    assert (Quote(x) + rest)[1..] == EscapeAll(x) + ['"'] + rest;
    ReadQuotedBody(x, rest);
  }

  lemma Regroup(a: string, b: string, c: string, d: string)
    ensures (a + b + c) + d == a + (b + (c + d))
  {
  }

  lemma ReadMemberOf(e: (string, string), tail: string)
    ensures ReadMember(Member(e) + tail) == Some((e, tail))
  {
    var (k, v) := e;
    var qv := Quote(v) + tail;
    var r1 := [':'] + qv;
    Regroup(Quote(k), [':'], Quote(v), tail);
    ReadQuoted(k, r1);
    assert r1[2..] == qv[1..];
    ReadQuoted(v, tail);
  }

  lemma ReadMembersLast(s: string, e: (string, string))
    requires ReadMember(s) == Some((e, ['}']))
    ensures ReadMembers(s) == Some([e])
  {
  }

  lemma ReadMembersMore(s: string, e: (string, string), tail: string, more: seq<(string, string)>)
    requires ReadMember(s) == Some((e, tail))
    requires 0 < |tail| && tail[0] == ',' && ReadMembers(tail[1..]) == Some(more)
    ensures ReadMembers(s) == Some([e] + more)
  {
    assert tail != ['}'];
  }

  lemma MembersSplit(entries: seq<(string, string)>)
    requires 1 < |entries|
    ensures Members(entries) + ['}'] == Member(entries[0]) + ([','] + (Members(entries[1..]) + ['}']))
  {
    Regroup(Member(entries[0]), [','], Members(entries[1..]), ['}']);
  }

  lemma {:induction false} ReadMembersOf(entries: seq<(string, string)>)
    requires 0 < |entries|
    ensures ReadMembers(Members(entries) + ['}']) == Some(entries)
    decreases |entries|
  {
    var e := entries[0];
    var s := Members(entries) + ['}'];
    if |entries| == 1 {
      assert s == Member(e) + ['}'];
      ReadMemberOf(e, ['}']);
      ReadMembersLast(s, e);
      assert [e] == entries;
    } else {
      var rest := entries[1..];
      var body := Members(rest) + ['}'];
      var tail := [','] + body;
      MembersSplit(entries);
      ReadMemberOf(e, tail);
      assert tail[1..] == body;
      ReadMembersOf(rest);
      ReadMembersMore(s, e, tail, rest);
      assert [e] + rest == entries;
    }
  }

  /** Distinct objects of strings serialize to distinct text. */
  lemma ObjectInjective(a: seq<(string, string)>, b: seq<(string, string)>)
    requires Object(a) == Object(b)
    ensures a == b
  {
  }
}

=== FILE: profile_page.dfy ===
/** The profile page: how profile values are shown, how an edit changes the
    page's local copy of the profile, what "Save information" sends, and the
    page's view/edit state. */
module ProfilePage {
  import opened Common
  import opened Decimal
  import opened Records
  import opened Json

  const Placeholder := "Not Provided"
  const Unselected := "Not Selected"
  const DefaultAvatar := "/default-avatar.png"
  const AddressPrefix := "address_"
  const AddressField := "address"

  /** What `String(v)` gives for an undefined value and for a plain object,
      as `FormData.append` converts them. */
  const Undefined := "undefined"
  const ObjectText := "[object Object]"

  /** What both `String(null)` and `JSON.stringify(null)` give. */
  const NullText := "null"

  /** The value of a top-level field; None when the key is absent. */
  function Get(p: Profile, name: string): (f: Option<Field>)
    ensures f.Some? <==> name in p
    ensures f.Some? ==> f.value == p[name]
  {
    if name in p then Some(p[name]) else None
  }

  /** The text of a field the page prints; None when absent or not a string. */
  function TextOf(p: Profile, name: string): (t: Option<string>)
    ensures t.Some? <==> name in p && p[name].Text?
    ensures t.Some? ==> p[name] == Text(t.value)
  {
    if name in p && p[name].Text? then Some(p[name].text) else None
  }

  // ---------------------------------------------------------------------
  // Showing values

  /** `safeText`: a non-empty text other than "Not Selected" is shown as is;
      an absent, empty or "Not Selected" value is shown as "Not Provided". */
  function SafeText(x: Option<string>): (shown: string)
    ensures Truthy(x) && x.value != Unselected ==> shown == x.value
    ensures !Truthy(x) || x.value == Unselected ==> shown == Placeholder
    ensures shown != "" && shown != Unselected
  {
    if Truthy(x) && x.value != Unselected then x.value else Placeholder
  }

  /** Showing a shown value again changes nothing, and the placeholder is
      shown exactly for the missing values (or for a stored "Not Provided"). */
  lemma SafeTextIdempotent(x: Option<string>)
    ensures SafeText(Some(SafeText(x))) == SafeText(x)
    ensures SafeText(x) == Placeholder <==> !Truthy(x) || x.value == Unselected || x.value == Placeholder
  {
  }

  /** The image source: the profile's image when it is a non-empty string,
      otherwise the default avatar. Never empty. */
  function ProfileImageSrc(p: Profile): (src: string)
    ensures src != ""
    ensures Truthy(TextOf(p, "image")) ==> src == p["image"].text
    ensures !Truthy(TextOf(p, "image")) ==> src == DefaultAvatar
  {
    if "image" in p && p["image"].Text? && |p["image"].text| > 0 then p["image"].text else DefaultAvatar
  }

  /** The page's inputs never touch the image: whatever is typed into an
      input other than one named "image", the image source stays the same. */
  lemma ImageSrcSurvivesEdits(p: Profile, name: string, value: string)
    requires name != "image"
    ensures ProfileImageSrc(HandleChange(p, name, value)) == ProfileImageSrc(p)
  {
  }

  // ---------------------------------------------------------------------
  // The address as an ordered list of entries

  function Keys(e: seq<(string, string)>): (ks: seq<string>)
    ensures |ks| == |e|
    ensures forall i :: 0 <= i < |e| ==> ks[i] == e[i].0
  {
    if |e| == 0 then [] else [e[0].0] + Keys(e[1..])
  }

  predicate Distinct(ks: seq<string>) {
    forall i, j :: 0 <= i < j < |ks| ==> ks[i] != ks[j]
  }

  /** `o[k]` on an object: the value of the first entry with key `k`. */
  function Lookup(e: seq<(string, string)>, k: string): (r: Option<string>)
    ensures r.None? <==> k !in Keys(e)
    ensures r.Some? ==> exists i :: 0 <= i < |e| && e[i] == (k, r.value) && forall j :: 0 <= j < i ==> e[j].0 != k
  {
    if |e| == 0 then None
    else if e[0].0 == k then Some(e[0].1)
    else Lookup(e[1..], k)
  }

  /** `{ ...o, [k]: v }`: an existing key keeps its place and takes the new
      value; a new key is added last. */
  function SetEntry(e: seq<(string, string)>, k: string, v: string): (r: seq<(string, string)>)
    ensures |e| <= |r| <= |e| + 1
  {
    if |e| == 0 then [(k, v)]
    else if e[0].0 == k then [(k, v)] + e[1..]
    else [e[0]] + SetEntry(e[1..], k, v)
  }

  /** The set key has the new value; every other key keeps its value. */
  lemma {:induction false} SetEntryLookup(e: seq<(string, string)>, k: string, v: string, j: string)
    ensures Lookup(SetEntry(e, k, v), j) == if j == k then Some(v) else Lookup(e, j)
    decreases |e|
  {
    var r := SetEntry(e, k, v);
    if |e| == 0 {
    } else if e[0].0 == k {
      assert r[1..] == e[1..];
    } else {
      SetEntryLookup(e[1..], k, v, j);
      assert r[1..] == SetEntry(e[1..], k, v);
    }
  }

  lemma SetEntryLookupAll(e: seq<(string, string)>, k: string, v: string)
    ensures Lookup(SetEntry(e, k, v), k) == Some(v)
    ensures forall j :: j != k ==> Lookup(SetEntry(e, k, v), j) == Lookup(e, j)
  {
    SetEntryLookup(e, k, v, k);
    forall j | j != k
      ensures Lookup(SetEntry(e, k, v), j) == Lookup(e, j)
    {
      SetEntryLookup(e, k, v, j);
    }
  }

  /** The keys keep their order; a new key is added last. */
  lemma {:induction false} SetEntryKeys(e: seq<(string, string)>, k: string, v: string)
    ensures Keys(SetEntry(e, k, v)) == if k in Keys(e) then Keys(e) else Keys(e) + [k]
    decreases |e|
  {
    var r := SetEntry(e, k, v);
    if |e| == 0 {
    } else if e[0].0 == k {
      assert r[1..] == e[1..];
      assert Keys(r) == [k] + Keys(e[1..]);
      assert k in Keys(e);
    } else {
      SetEntryKeys(e[1..], k, v);
      assert r[1..] == SetEntry(e[1..], k, v);
      assert Keys(r) == [e[0].0] + Keys(r[1..]);
      assert Keys(e) == [e[0].0] + Keys(e[1..]);
      assert k in Keys(e) <==> k in Keys(e[1..]);
    }
  }

  /** Setting a key never introduces a duplicate key. */
  lemma SetEntryKeepsKeysDistinct(e: seq<(string, string)>, k: string, v: string)
    requires Distinct(Keys(e))
    ensures Distinct(Keys(SetEntry(e, k, v)))
  {
    SetEntryKeys(e, k, v);
    var ks := Keys(e);
    if k !in ks {
      var rs := ks + [k];
      forall i, j | 0 <= i < j < |rs| ensures rs[i] != rs[j] {
        if j == |ks| {
          assert rs[i] == ks[i];
        }
      }
    }
  }

  /** `{ ...x }` for the stored address: nothing for an absent or null
      value, the entries of an object, and one entry per character, keyed by
      its index, for a string. */
  function SpreadOf(f: Option<Field>): (e: seq<(string, string)>)
    ensures f.Some? && f.value.Obj? ==> e == f.value.entries
    ensures f.Some? && f.value.Text? ==> |e| == |f.value.text|
    ensures f.Some? && f.value.Text? ==> forall i :: 0 <= i < |e| ==> e[i] == (Show(i), [f.value.text[i]])
    ensures f.None? || f == Some(Null) ==> e == []
  {
    match f
    case None => []
    case Some(Null) => []
    case Some(Obj(entries)) => entries
    case Some(Text(t)) => seq(|t|, i requires 0 <= i < |t| => (Show(i), [t[i]]))
  }

  // ---------------------------------------------------------------------
  // Editing

  /** `name.split("_")[1]` for a field name that starts with "address_": the
      text between the first and the second underscore (or the end). */
  function AddressKey(name: string): (k: Option<string>)
    ensures k.Some? <==> |name| >= |AddressPrefix| && name[..|AddressPrefix|] == AddressPrefix
    ensures k.Some? ==> '_' !in k.value
  {
    if |name| >= |AddressPrefix| && name[..|AddressPrefix|] == AddressPrefix then
      var tail := name[|AddressPrefix|..];
      match SplitFirst(tail, '_')
      case None => Some(tail)
      case Some((seg, _)) => Some(seg)
    else None
  }

  /** The key is read back from an input name made of the prefix, the key
      and optionally a further underscore-separated suffix. */
  lemma AddressKeyOf(k: string, suffix: Option<string>)
    requires '_' !in k
    ensures AddressKey(AddressPrefix + k + (if suffix.Some? then "_" + suffix.value else "")) == Some(k)
  {
    var extra := if suffix.Some? then "_" + suffix.value else "";
    var name := AddressPrefix + k + extra;
    assert name[..|AddressPrefix|] == AddressPrefix;
    assert name[|AddressPrefix|..] == k + extra;
    if suffix.Some? {
      assert k + extra == k + ['_'] + suffix.value;
      SplitFirstOf(k, '_', suffix.value);
    } else {
      assert k + extra == k;
    }
  }

  /** `handleChange`: an input named "address_<key>" sets that key of the
      address object (starting from a spread of the stored address) and
      leaves every other field alone; any other input sets the top-level
      field of its name to the typed text. */
  function HandleChange(p: Profile, name: string, value: string): (q: Profile)
    ensures AddressKey(name).Some? ==>
      && q.Keys == p.Keys + {AddressField}
      && (forall n :: n in p && n != AddressField ==> q[n] == p[n])
      && q[AddressField].Obj?
      && Lookup(q[AddressField].entries, AddressKey(name).value) == Some(value)
      && (forall j :: j != AddressKey(name).value ==>
            Lookup(q[AddressField].entries, j) == Lookup(SpreadOf(Get(p, AddressField)), j))
    ensures AddressKey(name).None? ==>
      && q.Keys == p.Keys + {name}
      && q[name] == Text(value)
      && (forall n :: n in p && n != name ==> q[n] == p[n])
  {
    match AddressKey(name)
    case Some(k) =>
      SetEntryLookupAll(SpreadOf(Get(p, AddressField)), k, value);
      p[AddressField := Obj(SetEntry(SpreadOf(Get(p, AddressField)), k, value))]
    case None => p[name := Text(value)]
  }

  /** Editing one address line keeps the other line's typed text. */
  lemma EditsCommute(p: Profile, v1: string, v2: string)
    ensures var q := HandleChange(HandleChange(p, "address_line1", v1), "address_line2", v2);
      && Lookup(q[AddressField].entries, "line1") == Some(v1)
      && Lookup(q[AddressField].entries, "line2") == Some(v2)
  {
    AddressKeyOf("line1", None);
    AddressKeyOf("line2", None);
    assert "address_line1" == AddressPrefix + "line1" + "";
    assert "address_line2" == AddressPrefix + "line2" + "";
  }

  // ---------------------------------------------------------------------
  // Saving

  /** `String(v)` as `FormData.append` applies it to a field value. */
  function FormText(f: Option<Field>): (s: string)
    ensures f.Some? && f.value.Text? ==> s == f.value.text
    ensures f.None? ==> s == Undefined
    ensures f == Some(Null) ==> s == NullText
    ensures f.Some? && f.value.Obj? ==> s == ObjectText
  {
    match f
    case None => Undefined
    case Some(Null) => NullText
    case Some(Text(t)) => t
    case Some(Obj(_)) => ObjectText
  }

  /** `JSON.stringify(v)` appended to the form: an absent value stringifies
      to undefined, which the form then holds as "undefined"; a null value
      stringifies to "null". */
  function StringifyField(f: Option<Field>): (s: string)
    ensures f.Some? && f.value.Obj? ==> ReadObject(s) == Some(f.value.entries)
    ensures f.Some? && f.value.Text? ==> |s| > 0 && s[0] == '"' && ReadString(s[1..]) == Some((f.value.text, []))
    ensures f.None? ==> s == Undefined
    ensures f == Some(Null) ==> s == NullText
  {
    match f
    case None => Undefined
    case Some(Null) => NullText
    case Some(Text(t)) => Quote(t)
    case Some(Obj(e)) => Object(e)
  }

  /** JavaScript truthiness of a field value: an absent, null or empty
      string value is falsy; an object is truthy. */
  predicate FieldTruthy(f: Option<Field>) {
    f.Some? && f.value != Null && f.value != Text("")
  }

  /** The form "Save information" posts, field by field in order: name,
      phone (`phone || ""`), address as JSON, dob and gender. */
  function SavePayload(p: Profile): (form: seq<(string, string)>)
    ensures Keys(form) == ["name", "phone", "address", "dob", "gender"]
    ensures form[0].1 == FormText(Get(p, "name"))
    ensures form[1].1 == (if FieldTruthy(Get(p, "phone")) then FormText(Get(p, "phone")) else "")
    ensures form[3].1 == FormText(Get(p, "dob")) && form[4].1 == FormText(Get(p, "gender"))
    ensures Get(p, AddressField).Some? && p[AddressField].Obj? ==> ReadObject(form[2].1) == Some(p[AddressField].entries)
  {
    var phone := Get(p, "phone");
    [ ("name", FormText(Get(p, "name"))),
      ("phone", if FieldTruthy(phone) then FormText(phone) else ""),
      ("address", StringifyField(Get(p, AddressField))),
      ("dob", FormText(Get(p, "dob"))),
      ("gender", FormText(Get(p, "gender"))) ]
  }

  /** Whatever was typed into an address line reaches the server: the saved
      address reads back to an object whose entry for that line is the text. */
  lemma SavedAddressCarriesEdit(p: Profile, name: string, value: string)
    requires AddressKey(name).Some?
    ensures var form := SavePayload(HandleChange(p, name, value));
      && ReadObject(form[2].1).Some?
      && Lookup(ReadObject(form[2].1).value, AddressKey(name).value) == Some(value)
  {
  }

  // ---------------------------------------------------------------------
  // View and edit state

  /** The page's state: edit mode and its local copy of the profile (None
      until the shared profile first arrives). */
  datatype Editor = Editor(isEdit: bool, local: Option<Profile>)

  const Initial := Editor(false, None)

  /** What the page shows. */
  datatype Screen = Blank | Loading | Page(profile: Profile, editing: bool)

  /** Without a local copy the page shows "Loading profile..." when a shared
      profile exists and nothing otherwise; with one it shows that copy. */
  function Render(e: Editor, userData: Option<Profile>): (s: Screen)
    ensures s.Page? <==> e.local.Some?
    ensures s.Page? ==> s.profile == e.local.value && s.editing == e.isEdit
    ensures s.Loading? <==> e.local.None? && userData.Some?
  {
    if e.local.Some? then Page(e.local.value, e.isEdit)
    else if userData.Some? then Loading
    else Blank
  }

  /** What the page does in response to something happening.
      - UserDataChanged: the shared profile changed (the effect on it).
      - PressButton: the single button, "Edit" in view mode and "Save
        information" in edit mode.
      - Change: an input of the edit form changed.
      - SaveReply: the reply to the save request arrived. */
  datatype Event =
    | UserDataChanged(userData: Option<Profile>)
    | PressButton
    | Change(name: string, value: string)
    | SaveReply(reply: Reply<()>)

  /** What an event asks of the outside world: a notice, the form to post,
      and whether to reload the shared profile. */
  datatype Effects = Effects(notice: Option<Notice>, save: Option<seq<(string, string)>>, reload: bool)

  const Quiet := Effects(None, None, false)

  /** One event. The button and the inputs exist only once a local copy is
      shown, and the inputs only in edit mode; an event on an element that is
      not shown does nothing. A save that fails keeps the page in edit mode
      with the typed values; a `success: false` reply shows the backend's
      message, and a save that throws shows the error's own text, never the
      message of the response it may carry. */
  function Step(e: Editor, ev: Event): (r: (Editor, Effects))
    ensures ev.UserDataChanged? ==>
      r.1 == Quiet && r.0.isEdit == e.isEdit &&
      r.0.local == (if ev.userData.Some? then ev.userData else e.local)
    ensures ev.PressButton? && e.local.Some? && !e.isEdit ==> r == (e.(isEdit := true), Quiet)
    ensures ev.PressButton? && e.local.Some? && e.isEdit ==> r == (e, Effects(None, Some(SavePayload(e.local.value)), false))
    ensures ev.Change? && e.local.Some? && e.isEdit ==>
      r == (e.(local := Some(HandleChange(e.local.value, ev.name, ev.value))), Quiet)
    ensures (ev.PressButton? || ev.Change?) && e.local.None? ==> r == (e, Quiet)
    ensures ev.Change? && !e.isEdit ==> r == (e, Quiet)
    ensures ev.SaveReply? && ev.reply.Ok? ==>
      r == (e.(isEdit := false), Effects(Some(Info(ev.reply.message)), None, true))
    ensures ev.SaveReply? && ev.reply.AppFail? ==> r == (e, Effects(Some(Error(ev.reply.message)), None, false))
    ensures ev.SaveReply? && ev.reply.Transport? ==> r == (e, Effects(Some(Error(ev.reply.errorMessage)), None, false))
  {
    match ev
    case UserDataChanged(u) =>
      if u.Some? then (e.(local := u), Quiet) else (e, Quiet)
    case PressButton =>
      if e.local.None? then (e, Quiet)
      else if e.isEdit then (e, Effects(None, Some(SavePayload(e.local.value)), false))
      else (e.(isEdit := true), Quiet)
    case Change(name, value) =>
      if e.local.Some? && e.isEdit then (e.(local := Some(HandleChange(e.local.value, name, value))), Quiet)
      else (e, Quiet)
    case SaveReply(reply) =>
      match reply
      case Ok(_, msg) => (e.(isEdit := false), Effects(Some(Info(msg)), None, true))
      case AppFail(msg) => (e, Effects(Some(Error(msg)), None, false))
      case Transport(_, em) => (e, Effects(Some(Error(em)), None, false))
  }

  /** Edit mode is entered only by pressing "Edit" on a shown profile and
      left only by a successful save. */
  lemma EditModeTransitions(e: Editor, ev: Event)
    ensures !e.isEdit && Step(e, ev).0.isEdit <==> !e.isEdit && ev.PressButton? && e.local.Some?
    ensures e.isEdit && !Step(e, ev).0.isEdit <==> e.isEdit && ev.SaveReply? && ev.reply.Ok?
  {
  }

  /** The state after a sequence of events, and every effect raised. */
  function Run(e: Editor, evs: seq<Event>): (r: (Editor, seq<Effects>))
    ensures |r.1| == |evs|
    decreases |evs|
  {
    if |evs| == 0 then (e, [])
    else
      var (e1, fx) := Step(e, evs[0]);
      var (e2, rest) := Run(e1, evs[1..]);
      (e2, [fx] + rest)
  }

  /** The page is in edit mode only while it shows a profile, and once it
      shows one it never goes back to "Loading profile...". */
  predicate Coherent(e: Editor) {
    e.isEdit ==> e.local.Some?
  }

  lemma {:induction false} RunKeepsCoherent(e: Editor, evs: seq<Event>)
    requires Coherent(e)
    ensures Coherent(Run(e, evs).0)
    ensures e.local.Some? ==> Run(e, evs).0.local.Some?
    decreases |evs|
  {
    if |evs| > 0 {
      var e1 := Step(e, evs[0]).0;
      assert Coherent(e1);
      RunKeepsCoherent(e1, evs[1..]);
    }
  }

  /** Along any sequence of events, a reload of the shared profile is asked
      for exactly by the successful save replies. */
  lemma {:induction false} RunEffects(e: Editor, evs: seq<Event>, i: nat)
    requires i < |evs|
    ensures Run(e, evs).1[i].reload <==> evs[i].SaveReply? && evs[i].reply.Ok?
    decreases |evs|
  {
    if i > 0 {
      RunEffects(Step(e, evs[0]).0, evs[1..], i - 1);
    }
  }
}

=== FILE: records.dfy ===
/** The backend's entities as the client caches them. */
module Records {

  /** A doctor from the directory. `slotsBooked` maps a date key
      (`day_month_year`) to the labels of the times already booked that day;
      a doctor without the field is modelled with the empty map. */
  datatype Doctor = Doctor(
    id: string,
    name: string,
    speciality: string,
    degree: string,
    experience: string,
    about: string,
    fees: int,
    image: string,
    slotsBooked: map<string, seq<string>>)

  /** A field value of the user's profile object: a string, a nested
      object whose string entries are kept in insertion order (the order in
      which a JavaScript object enumerates and serializes its keys), or
      `null`. A null field is present but falsy; it is posted and serialized
      as "null", unlike an absent field. */
  datatype Field = Text(text: string) | Obj(entries: seq<(string, string)>) | Null

  /** The user's profile object: field name to value; an absent key is an
      undefined field. */
  type Profile = map<string, Field>
}

=== FILE: slot_facts.dfy ===
/** What the slot generator guarantees: the shape of each day's candidate
    steps, today's start rule, which steps a day keeps, the order of a bucket,
    and the shape of the whole week. */
module SlotFacts {
  import opened Records
  import opened DateKey
  import opened Slots
  import TimeLabel

  // ---------------------------------------------------------------------
  // Candidate steps

  /** The k-th step from `t` is before 21:00 exactly when k counts fewer
      steps than StepsBefore(t). */
  lemma StepsBeforeBound(t: nat, k: nat)
    ensures k < StepsBefore(t) <==> t + Step * k < Close
  {
  }

  /** The candidates from `t` are `t`, `t + 30`, ... strictly before 21:00:
      there is one exactly when `t` is before 21:00, the first is `t`, and
      each lies in [t, 21:00) a whole number of steps after `t`. */
  lemma CandidatesShape(t: nat)
    ensures var ts := Candidates(t);
      && (t < Close <==> 0 < |ts|)
      && (0 < |ts| ==> ts[0] == t)
      && (forall k :: 0 <= k < |ts| ==> t <= ts[k] < Close && (ts[k] - t) % Step == 0)
  {
    var ts := Candidates(t);
    StepsBeforeBound(t, 0);
    forall k | 0 <= k < |ts|
      ensures t <= ts[k] < Close && (ts[k] - t) % Step == 0
    {
      StepsBeforeBound(t, k);
    }
  }

  lemma CandidatesIncreasing(t: nat)
    ensures Increasing(Candidates(t))
  {
  }

  /** A minute is a candidate from `t` exactly when it lies in [t, 21:00)
      a whole number of half hours after `t`. */
  lemma CandidatesMember(t: nat, x: nat)
    ensures x in Candidates(t) <==> t <= x < Close && (x - t) % Step == 0
  {
    var ts := Candidates(t);
    if x in ts {
      var k :| 0 <= k < |ts| && ts[k] == x;
      StepsBeforeBound(t, k);
    }
    if t <= x < Close && (x - t) % Step == 0 {
      var k := (x - t) / Step;
      assert x == t + Step * k;
      StepsBeforeBound(t, k);
      assert ts[k] == x;
    }
  }

  /** Every day after today offers exactly 10:00, 10:30, ..., 20:30: 22 steps,
      the last one before 21:00. */
  lemma LaterDayCandidates(offset: nat, now: Clock)
    requires 0 < offset
    ensures DayStart(offset, now) == Open
    ensures Candidates(DayStart(offset, now)) == seq(22, k => Open + Step * k)
    ensures Candidates(DayStart(offset, now))[21] == 1230
  {
  }

  // ---------------------------------------------------------------------
  // Today's start

  /** Today's start is a half-hour boundary no earlier than 10:00; it lands
      on :30 exactly when the current minute is past 30, so it never rounds
      the minute up; it reaches 21:00 exactly when the hour is 20 or later,
      and it falls before the current time exactly when the clock reads
      10:01..10:59. */
  lemma DayZeroStartRule(now: Clock)
    requires ValidClock(now)
    ensures var start := DayZeroStart(now);
      && start % Step == 0
      && Open <= start
      && (start % 60 == 30 <==> now.minute > 30)
      && start % 60 <= now.minute
      && (Close <= start <==> 20 <= now.hour)
      && (start < MinuteOfDay(now) <==> now.hour == 10 && 0 < now.minute)
  {
  }

  /** 10:45 starts today's walk at 10:30, not at 11:00. */
  lemma DayZeroStartAtTenFortyFive()
    ensures DayZeroStart(Clock(10, 45)) == 630
  {
  }

  /** From 20:00 on, today has no step and is left out of the grid. */
  lemma LateDayZeroIsEmpty(week: seq<CalendarDate>, now: Clock, doc: Doctor, labelOf: Labeller)
    requires |week| == DaysShown && ValidClock(now) && 20 <= now.hour
    ensures DayBucket(0, week, now, doc, labelOf) == []
    ensures 0 !in ShownDays(DayBuckets(week, now, doc, labelOf), 0)
  {
    DayZeroStartRule(now);
    CandidatesShape(DayStart(0, now));
    GridShape(week, now, doc, labelOf);
  }

  // ---------------------------------------------------------------------
  // One day's bucket

  /** A slot is in day `offset`'s bucket exactly when it is one of that day's
      candidate steps, carries that day's date and its minute's label, and
      that label is not booked under the day's key. */
  lemma BucketMembership(offset: nat, week: seq<CalendarDate>, now: Clock, doc: Doctor, labelOf: Labeller, s: Slot)
    requires offset < |week|
    ensures s in DayBucket(offset, week, now, doc, labelOf) <==>
      && s.minute in Candidates(DayStart(offset, now))
      && s.date == week[offset]
      && s.time == labelOf(s.minute)
      && s.time !in BookedOn(doc, Key(week[offset]))
  {
    var ts, booked := Candidates(DayStart(offset, now)), BookedOn(doc, Key(week[offset]));
    var b := DayBucket(offset, week, now, doc, labelOf);
    KeepSound(ts, week[offset], booked, labelOf);
    if s.minute in ts && s.date == week[offset] && s.time == labelOf(s.minute) && s.time !in booked {
      KeepComplete(ts, week[offset], booked, labelOf, s.minute);
      var k :| 0 <= k < |b| && b[k].minute == s.minute;
      assert b[k] == s;
    }
  }

  /** A day whose key is missing from the doctor's booked map keeps every
      candidate step. */
  lemma MissingKeyKeepsAll(offset: nat, week: seq<CalendarDate>, now: Clock, doc: Doctor, labelOf: Labeller)
    requires offset < |week|
    requires Key(week[offset]) !in doc.slotsBooked
    ensures Minutes(DayBucket(offset, week, now, doc, labelOf)) == Candidates(DayStart(offset, now))
  {
    KeepAll(Candidates(DayStart(offset, now)), week[offset], [], labelOf);
  }

  /** Two minutes a whole number of steps after `start` are a whole number
      of steps apart. */
  lemma StepDifference(start: int, x: int, y: int)
    requires (x - start) % Step == 0 && (y - start) % Step == 0
    ensures (y - x) % Step == 0
  {
    var i, j := (x - start) / Step, (y - start) / Step;
    assert x - start == Step * i && y - start == Step * j;
    assert y - x == Step * (j - i);
  }

  /** Every slot time lies in [start, 21:00), a whole number of half hours
      after `start`. */
  predicate OnHalfHours(b: Bucket, start: nat) {
    forall k :: 0 <= k < |b| ==> start <= b[k].minute < Close && (b[k].minute - start) % Step == 0
  }

  /** Any two slots are a positive whole number of half hours apart, the
      earlier one first. */
  predicate HalfHoursApart(b: Bucket) {
    forall j, k :: 0 <= j < k < |b| ==> b[j].minute < b[k].minute && (b[k].minute - b[j].minute) % Step == 0
  }

  predicate DistinctLabels(b: Bucket) {
    forall j, k :: 0 <= j < k < |b| ==> b[j].time != b[k].time
  }

  lemma KeptOnHalfHours(start: nat, date: CalendarDate, booked: seq<string>, labelOf: Labeller)
    ensures OnHalfHours(Keep(Candidates(start), date, booked, labelOf), start)
  {
    var b := Keep(Candidates(start), date, booked, labelOf);
    KeepSound(Candidates(start), date, booked, labelOf);
    forall k | 0 <= k < |b|
      ensures start <= b[k].minute < Close && (b[k].minute - start) % Step == 0
    {
      CandidatesMember(start, b[k].minute);
    }
  }

  lemma KeptHalfHoursApart(start: nat, date: CalendarDate, booked: seq<string>, labelOf: Labeller)
    ensures HalfHoursApart(Keep(Candidates(start), date, booked, labelOf))
  {
    var b := Keep(Candidates(start), date, booked, labelOf);
    CandidatesIncreasing(start);
    KeepIncreasing(Candidates(start), date, booked, labelOf);
    KeptOnHalfHours(start, date, booked, labelOf);
    forall j, k | 0 <= j < k < |b|
      ensures b[j].minute < b[k].minute && (b[k].minute - b[j].minute) % Step == 0
    {
      StepDifference(start, b[j].minute, b[k].minute);
    }
  }

  lemma KeptLabelsDistinct(start: nat, date: CalendarDate, booked: seq<string>, labelOf: Labeller)
    requires InjectiveOnDay(labelOf)
    ensures DistinctLabels(Keep(Candidates(start), date, booked, labelOf))
  {
    var b := Keep(Candidates(start), date, booked, labelOf);
    CandidatesIncreasing(start);
    KeepIncreasing(Candidates(start), date, booked, labelOf);
    KeptOnHalfHours(start, date, booked, labelOf);
    KeepSound(Candidates(start), date, booked, labelOf);
    forall j, k | 0 <= j < k < |b|
      ensures b[j].time != b[k].time
    {
      assert b[j].minute < b[k].minute < TimeLabel.MinutesPerDay;
    }
  }

  /** Within a bucket the slot times strictly increase, each lies in
      [start, 21:00) a whole number of half hours after the day's start, and
      any two are a positive multiple of 30 minutes apart. */
  lemma BucketOrdered(offset: nat, week: seq<CalendarDate>, now: Clock, doc: Doctor, labelOf: Labeller)
    requires offset < |week|
    ensures OnHalfHours(DayBucket(offset, week, now, doc, labelOf), DayStart(offset, now))
    ensures HalfHoursApart(DayBucket(offset, week, now, doc, labelOf))
  {
    KeptOnHalfHours(DayStart(offset, now), week[offset], BookedOn(doc, Key(week[offset])), labelOf);
    KeptHalfHoursApart(DayStart(offset, now), week[offset], BookedOn(doc, Key(week[offset])), labelOf);
  }

  /** Every slot of a bucket carries the bucket's calendar day, so the key
      derived from the bucket's first slot is the key of any slot in it. */
  lemma BucketSharesKey(offset: nat, week: seq<CalendarDate>, now: Clock, doc: Doctor, labelOf: Labeller)
    requires offset < |week|
    ensures var b := DayBucket(offset, week, now, doc, labelOf);
      forall k :: 0 <= k < |b| ==> b[k].date == week[offset] && Key(b[k].date) == Key(b[0].date)
  {
    KeepSound(Candidates(DayStart(offset, now)), week[offset], BookedOn(doc, Key(week[offset])), labelOf);
  }

  /** With a labelling that tells the minutes of a day apart, no two slots of
      a bucket share a label, so a selected label picks out one slot. */
  lemma BucketLabelsDistinct(offset: nat, week: seq<CalendarDate>, now: Clock, doc: Doctor, labelOf: Labeller)
    requires offset < |week|
    requires InjectiveOnDay(labelOf)
    ensures DistinctLabels(DayBucket(offset, week, now, doc, labelOf))
  {
    KeptLabelsDistinct(DayStart(offset, now), week[offset], BookedOn(doc, Key(week[offset])), labelOf);
  }

  /** The en-US label tells the minutes of a day apart. */
  lemma EnUsLabelInjective()
    ensures InjectiveOnDay(TimeLabel.Label)
  {
    forall a: nat, b: nat | a < TimeLabel.MinutesPerDay && b < TimeLabel.MinutesPerDay && TimeLabel.Label(a) == TimeLabel.Label(b)
      ensures a == b
    {
      TimeLabel.LabelInjective(a, b);
    }
  }

  // ---------------------------------------------------------------------
  // The week

  /** With nothing booked and today's start before 21:00, all seven days are
      shown, each with every half-hour step from its start to 21:00. */
  lemma EmptyBookingsFullWeek(week: seq<CalendarDate>, now: Clock, doc: Doctor, labelOf: Labeller)
    requires |week| == DaysShown && ValidClock(now) && now.hour < 20
    requires doc.slotsBooked == map[]
    ensures var g := WeekGrid(week, now, doc, labelOf);
      |g| == DaysShown && forall k :: 0 <= k < DaysShown ==> Minutes(g[k]) == Candidates(DayStart(k, now))
  {
    var bs := DayBuckets(week, now, doc, labelOf);
    DayZeroStartRule(now);
    forall o | 0 <= o < DaysShown
      ensures Minutes(bs[o]) == Candidates(DayStart(o, now))
      ensures 0 < |bs[o]|
    {
      MissingKeyKeepsAll(o, week, now, doc, labelOf);
      CandidatesShape(DayStart(o, now));
    }
    DropEmptyKeepsAll(bs, 0);
  }

  /** When no bucket from `i` on is empty, nothing is dropped. */
  lemma {:induction false} DropEmptyKeepsAll(bs: seq<Bucket>, i: nat)
    requires i <= |bs|
    requires forall j :: i <= j < |bs| ==> 0 < |bs[j]|
    ensures DropEmpty(bs, i) == bs[i..]
    decreases |bs| - i
  {
    if i < |bs| {
      DropEmptyKeepsAll(bs, i + 1);
      assert bs[i..] == [bs[i]] + bs[i + 1..];
    }
  }

  /** At 09:00, with the 10:00 step of today booked, today's bucket starts at
      10:30 and runs every half hour to 20:30: 21 slots. */
  lemma HalfPastTenOnwards()
    ensures Candidates(Open + Step) == seq(21, k => 630 + Step * k)
  {
    assert StepsBefore(Open + Step) == 21;
  }

  lemma NineOClockWithTenBooked(week: seq<CalendarDate>, doc: Doctor, labelOf: Labeller)
    requires |week| == DaysShown && InjectiveOnDay(labelOf)
    requires BookedOn(doc, Key(week[0])) == [labelOf(Open)]
    ensures Minutes(DayBucket(0, week, Clock(9, 0), doc, labelOf)) == seq(21, k => 630 + Step * k)
  {
    var booked := [labelOf(Open)];
    var rest := Candidates(Open + Step);
    assert DayStart(0, Clock(9, 0)) == Open;
    KeepStep(Open, week[0], booked, labelOf);
    assert DayBucket(0, week, Clock(9, 0), doc, labelOf) == Keep(rest, week[0], booked, labelOf);
    forall t | t in rest
      ensures labelOf(t) !in booked
    {
      CandidatesMember(Open + Step, t);
    }
    KeepAll(rest, week[0], booked, labelOf);
    HalfPastTenOnwards();
  }
}

=== FILE: slots.dfy ===
/** The appointment page's slot generator: for each of the next seven days it
    walks half-hour steps from a start time up to 21:00, drops the steps whose
    label the doctor already has booked for that day, and keeps the days that
    still have a free step.

    Times are minutes of the day. The calendar days of the seven offsets are
    an input (`week`), so month and year rollover stay outside the model. */
module Slots {
  import opened Common
  import opened Records
  import opened DateKey
  import TimeLabel

  /** 10:00, the first step of every day after today. */
  const Open: nat := 600
  /** 21:00, the end of the day; steps must lie strictly before it. */
  const Close: nat := 1260
  const Step: nat := 30
  /** Today and the six days after it. */
  const DaysShown: nat := 7

  /** The current local time, hours 0..23 and minutes 0..59. */
  datatype Clock = Clock(hour: nat, minute: nat)

  predicate ValidClock(c: Clock) {
    c.hour < 24 && c.minute < 60
  }

  function MinuteOfDay(c: Clock): nat {
    c.hour * 60 + c.minute
  }

  /** One bookable step: its calendar day, its minute of the day and the
      label the page shows and sends. */
  datatype Slot = Slot(date: CalendarDate, minute: nat, time: string)

  type Bucket = seq<Slot>
  type Grid = seq<Bucket>

  /** How the page renders a minute of the day as a slot label
      (`toLocaleTimeString` with two-digit hour and minute); TimeLabel.Label
      is the en-US instance. */
  type Labeller = nat -> string

  /** Distinct minutes of one day get distinct labels. */
  predicate InjectiveOnDay(labelOf: Labeller) {
    forall a: nat, b: nat :: a < TimeLabel.MinutesPerDay && b < TimeLabel.MinutesPerDay && labelOf(a) == labelOf(b) ==> a == b
  }

  // ---------------------------------------------------------------------
  // Start of a day and its candidate steps

  /** Today's first step: the next hour (but not before 10), at :30 when the
      current minute is past 30 and at :00 otherwise. A time past 23:00 gives
      a minute beyond the end of the day, which the Date rolls into tomorrow.
      From 11:00 on the start is strictly later than now and at most an hour
      away; before then it is 10:00 or 10:30. */
  function DayZeroStart(now: Clock): (t: nat)
    ensures t % Step == 0 && Open <= t
    ensures ValidClock(now) && now.hour > 10 ==> MinuteOfDay(now) < t <= MinuteOfDay(now) + 60
    ensures now.hour <= 10 ==> t == Open || t == Open + Step
  {
    var hour := if now.hour > 10 then now.hour + 1 else 10;
    var half := if now.minute > 30 then 1 else 0;
    StepMultiple(2 * hour + half);
    hour * 60 + half * 30
  }

  lemma StepMultiple(n: nat)
    ensures (Step * n) % Step == 0
  {
  }

  function DayStart(offset: nat, now: Clock): nat {
    if offset == 0 then DayZeroStart(now) else Open
  }

  predicate Increasing(ts: seq<nat>) {
    forall j, k :: 0 <= j < k < |ts| ==> ts[j] < ts[k]
  }

  /** How many half-hour steps from `t` lie strictly before 21:00. */
  function StepsBefore(t: nat): nat {
    if t < Close then (Close - t + Step - 1) / Step else 0
  }

  /** The steps `t`, `t + 30`, ... that lie strictly before 21:00: every
      step is before 21:00, the walk starts at `t` when `t` is, and the step
      after the last one is at or past 21:00. */
  function Candidates(t: nat): (ts: seq<nat>)
    ensures forall k :: 0 <= k < |ts| ==> ts[k] < Close
    ensures t < Close ==> 0 < |ts| && ts[0] == t
    ensures Close <= t + Step * |ts|
  {
    seq(StepsBefore(t), k => t + Step * k)
  }

  /** Peeling the first step off the walk. */
  lemma CandidatesUnfold(t: nat)
    ensures t < Close ==> Candidates(t) == [t] + Candidates(t + Step)
    ensures Close <= t ==> Candidates(t) == []
  {
    if t < Close {
      assert StepsBefore(t) == StepsBefore(t + Step) + 1;
      var ts, rest := Candidates(t), Candidates(t + Step);
      forall k | 0 < k < |ts|
        ensures ts[k] == rest[k - 1]
      {
      }
      assert ts == [t] + rest;
    }
  }

  // ---------------------------------------------------------------------
  // One day's bucket

  /** `docInfo.slots_booked?.[slotDate] || []`: the labels booked under a
      date key, none when the key is missing. */
  function BookedOn(doc: Doctor, key: string): (booked: seq<string>)
    ensures forall l :: l in booked <==> key in doc.slotsBooked && l in doc.slotsBooked[key]
  {
    if key in doc.slotsBooked then doc.slotsBooked[key] else []
  }

  function Minutes(b: Bucket): (ms: seq<nat>)
    ensures |ms| == |b|
    ensures forall k :: 0 <= k < |b| ==> ms[k] == b[k].minute
  {
    if |b| == 0 then [] else [b[0].minute] + Minutes(b[1..])
  }

  /** The steps of `ts` whose label is not in `booked`, in order, each as a
      slot of day `date`. */
  function Keep(ts: seq<nat>, date: CalendarDate, booked: seq<string>, labelOf: Labeller): (b: Bucket)
    ensures |b| <= |ts|
  {
    if |ts| == 0 then []
    else (if labelOf(ts[0]) in booked then [] else [Slot(date, ts[0], labelOf(ts[0]))])
         + Keep(ts[1..], date, booked, labelOf)
  }

  /** Every slot of `b` is a step of `ts`, of day `date`, labelled by its
      minute, and its label is not booked. */
  predicate SlotsFrom(b: Bucket, ts: seq<nat>, date: CalendarDate, booked: seq<string>, labelOf: Labeller) {
    forall k :: 0 <= k < |b| ==>
      b[k].date == date && b[k].time == labelOf(b[k].minute) &&
      b[k].time !in booked && b[k].minute in ts
  }

  lemma {:induction false} KeepSound(ts: seq<nat>, date: CalendarDate, booked: seq<string>, labelOf: Labeller)
    ensures SlotsFrom(Keep(ts, date, booked, labelOf), ts, date, booked, labelOf)
  {
    if |ts| > 0 {
      KeepSound(ts[1..], date, booked, labelOf);
      var rest := Keep(ts[1..], date, booked, labelOf);
      var b := Keep(ts, date, booked, labelOf);
      forall k | 0 <= k < |b|
        ensures b[k].date == date && b[k].time == labelOf(b[k].minute)
        ensures b[k].time !in booked && b[k].minute in ts
      {
        if labelOf(ts[0]) in booked {
          assert b[k] == rest[k];
          assert rest[k].minute in ts[1..];
        } else if k == 0 {
          assert b[0] == Slot(date, ts[0], labelOf(ts[0]));
        } else {
          assert b[k] == rest[k - 1];
          assert rest[k - 1].minute in ts[1..];
        }
      }
    }
  }

  /** Every step of `ts` whose label is not booked is kept. */
  lemma {:induction false} KeepComplete(ts: seq<nat>, date: CalendarDate, booked: seq<string>, labelOf: Labeller, t: nat)
    requires t in ts && labelOf(t) !in booked
    ensures exists k :: 0 <= k < |Keep(ts, date, booked, labelOf)| && Keep(ts, date, booked, labelOf)[k].minute == t
  {
    var rest := Keep(ts[1..], date, booked, labelOf);
    if ts[0] == t {
      assert Keep(ts, date, booked, labelOf)[0].minute == t;
    } else {
      KeepComplete(ts[1..], date, booked, labelOf, t);
      var k :| 0 <= k < |rest| && rest[k].minute == t;
      if labelOf(ts[0]) in booked {
        assert Keep(ts, date, booked, labelOf)[k].minute == t;
      } else {
        assert Keep(ts, date, booked, labelOf)[k + 1].minute == t;
      }
    }
  }

  /** Slot times strictly increase along the bucket. */
  predicate Ascending(b: Bucket) {
    forall j, k :: 0 <= j < k < |b| ==> b[j].minute < b[k].minute
  }

  lemma IncreasingTail(ts: seq<nat>)
    requires 0 < |ts| && Increasing(ts)
    ensures Increasing(ts[1..])
  {
    forall j, k | 0 <= j < k < |ts| - 1
      ensures ts[1..][j] < ts[1..][k]
    {
      assert ts[1..][j] == ts[j + 1] && ts[1..][k] == ts[k + 1];
    }
  }

  lemma HeadBelowTail(ts: seq<nat>, m: nat)
    requires 0 < |ts| && Increasing(ts) && m in ts[1..]
    ensures ts[0] < m
  {
    var x :| 0 <= x < |ts[1..]| && ts[1..][x] == m;
    assert ts[x + 1] == m;
  }

  /** Kept slots appear in the order of `ts`. */
  lemma {:induction false} KeepIncreasing(ts: seq<nat>, date: CalendarDate, booked: seq<string>, labelOf: Labeller)
    requires Increasing(ts)
    ensures Ascending(Keep(ts, date, booked, labelOf))
  {
    if |ts| > 0 {
      var rest := Keep(ts[1..], date, booked, labelOf);
      IncreasingTail(ts);
      KeepIncreasing(ts[1..], date, booked, labelOf);
      if labelOf(ts[0]) !in booked {
        KeepSound(ts[1..], date, booked, labelOf);
        var b := [Slot(date, ts[0], labelOf(ts[0]))] + rest;
        assert Keep(ts, date, booked, labelOf) == b;
        forall j, k | 0 <= j < k < |b|
          ensures b[j].minute < b[k].minute
        {
          assert b[k] == rest[k - 1];
          if j > 0 {
            assert b[j] == rest[j - 1];
          } else {
            HeadBelowTail(ts, rest[k - 1].minute);
          }
        }
      } else {
        assert Keep(ts, date, booked, labelOf) == rest;
      }
    }
  }

  /** With nothing booked among the labels of `ts`, every step is kept. */
  lemma {:induction false} KeepAll(ts: seq<nat>, date: CalendarDate, booked: seq<string>, labelOf: Labeller)
    requires forall t :: t in ts ==> labelOf(t) !in booked
    ensures Minutes(Keep(ts, date, booked, labelOf)) == ts
  {
    if |ts| > 0 {
      assert forall t :: t in ts[1..] ==> t in ts;
      KeepAll(ts[1..], date, booked, labelOf);
      var b := Keep(ts, date, booked, labelOf);
      assert b == [Slot(date, ts[0], labelOf(ts[0]))] + Keep(ts[1..], date, booked, labelOf);
      assert Minutes(b) == [ts[0]] + ts[1..];
    }
  }

  /** One half-hour step of the walk: the bucket from `t` on is the slot at
      `t` (when free) followed by the bucket from `t + 30` on. */
  lemma KeepStep(t: nat, date: CalendarDate, booked: seq<string>, labelOf: Labeller)
    requires t < Close
    ensures Keep(Candidates(t), date, booked, labelOf) ==
      (if labelOf(t) in booked then [] else [Slot(date, t, labelOf(t))]) + Keep(Candidates(t + Step), date, booked, labelOf)
  {
    CandidatesUnfold(t);
    assert Candidates(t)[1..] == Candidates(t + Step);
  }

  /** The free steps of day `offset`. */
  function DayBucket(offset: nat, week: seq<CalendarDate>, now: Clock, doc: Doctor, labelOf: Labeller): Bucket
    requires offset < |week|
  {
    Keep(Candidates(DayStart(offset, now)), week[offset], BookedOn(doc, Key(week[offset])), labelOf)
  }

  // ---------------------------------------------------------------------
  // The week

  /** The bucket of each day offset 0..6, empty ones included. */
  function DayBuckets(week: seq<CalendarDate>, now: Clock, doc: Doctor, labelOf: Labeller): seq<Bucket>
    requires |week| == DaysShown
  {
    seq(DaysShown, i requires 0 <= i < DaysShown => DayBucket(i, week, now, doc, labelOf))
  }

  /** Entry `i` of the week's buckets is the walk of day `i` with that
      day's booked labels removed. */
  lemma DayBucketsAt(week: seq<CalendarDate>, now: Clock, doc: Doctor, labelOf: Labeller, i: nat)
    requires |week| == DaysShown && i < DaysShown
    ensures DayBuckets(week, now, doc, labelOf)[i] ==
      Keep(Candidates(DayStart(i, now)), week[i], BookedOn(doc, Key(week[i])), labelOf)
  {
  }

  /** The buckets of `bs` from index `i` on, each kept only when non-empty. */
  function DropEmpty(bs: seq<Bucket>, i: nat): (g: Grid)
    ensures |g| <= if i <= |bs| then |bs| - i else 0
    ensures forall k :: 0 <= k < |g| ==> 0 < |g[k]|
    decreases |bs| - i
  {
    if i >= |bs| then []
    else (if |bs[i]| > 0 then [bs[i]] else []) + DropEmpty(bs, i + 1)
  }

  /** The indices from `i` on whose bucket is non-empty, in increasing
      order: the day offset each bucket of the grid stands for. */
  function ShownDays(bs: seq<Bucket>, i: nat): seq<nat>
    decreases |bs| - i
  {
    if i >= |bs| then []
    else (if |bs[i]| > 0 then [i] else []) + ShownDays(bs, i + 1)
  }

  /** The grid the page shows: the non-empty day buckets in day order. */
  function WeekGrid(week: seq<CalendarDate>, now: Clock, doc: Doctor, labelOf: Labeller): (g: Grid)
    requires |week| == DaysShown
    ensures |g| <= DaysShown
    ensures forall k :: 0 <= k < |g| ==> 0 < |g[k]|
  {
    DropEmpty(DayBuckets(week, now, doc, labelOf), 0)
  }

  /** Bucket `k` of `DropEmpty(bs, i)` is `bs[ShownDays(bs, i)[k]]`. */
  lemma {:induction false} DropEmptyDays(bs: seq<Bucket>, i: nat)
    ensures var g, ds := DropEmpty(bs, i), ShownDays(bs, i);
      |g| == |ds| && forall k :: 0 <= k < |ds| ==> ds[k] < |bs| && g[k] == bs[ds[k]]
    decreases |bs| - i
  {
    if i < |bs| {
      DropEmptyDays(bs, i + 1);
      var g1, d1 := DropEmpty(bs, i + 1), ShownDays(bs, i + 1);
      if |bs[i]| > 0 {
        var g, ds := [bs[i]] + g1, [i] + d1;
        assert DropEmpty(bs, i) == g && ShownDays(bs, i) == ds;
        forall k | 0 < k < |ds|
          ensures ds[k] < |bs| && g[k] == bs[ds[k]]
        {
          assert ds[k] == d1[k - 1] && g[k] == g1[k - 1];
        }
      } else {
        assert DropEmpty(bs, i) == g1 && ShownDays(bs, i) == d1;
      }
    }
  }

  /** The shown indices are increasing and lie in `i`..|bs|-1. */
  lemma {:induction false} ShownDaysIncreasing(bs: seq<Bucket>, i: nat)
    requires i <= |bs|
    ensures var ds := ShownDays(bs, i);
      |ds| <= |bs| - i && Increasing(ds) && forall k :: 0 <= k < |ds| ==> i <= ds[k] < |bs|
    decreases |bs| - i
  {
    if i < |bs| {
      ShownDaysIncreasing(bs, i + 1);
    }
  }

  /** An index is shown exactly when its bucket is non-empty. */
  lemma {:induction false} ShownDaysExactly(bs: seq<Bucket>, i: nat, o: nat)
    requires i <= o < |bs|
    ensures o in ShownDays(bs, i) <==> 0 < |bs[o]|
    decreases |bs| - i
  {
    ShownDaysIncreasing(bs, i + 1);
    if i < o {
      ShownDaysExactly(bs, i + 1, o);
    }
  }

  /** The grid is the sequence of non-empty day buckets in day order: at
      most seven buckets, none of them empty, each standing for a distinct
      day offset, and every day with a free step present. The index of a
      bucket need not equal its day offset. */
  lemma GridShape(week: seq<CalendarDate>, now: Clock, doc: Doctor, labelOf: Labeller)
    requires |week| == DaysShown
    ensures var bs := DayBuckets(week, now, doc, labelOf);
      var g, ds := WeekGrid(week, now, doc, labelOf), ShownDays(bs, 0);
      && |g| == |ds| <= DaysShown
      && Increasing(ds)
      && (forall k :: 0 <= k < |g| ==> ds[k] < DaysShown && g[k] == DayBucket(ds[k], week, now, doc, labelOf) && 0 < |g[k]|)
      && (forall o :: 0 <= o < DaysShown ==> (o in ds <==> 0 < |DayBucket(o, week, now, doc, labelOf)|))
  {
    var bs := DayBuckets(week, now, doc, labelOf);
    DropEmptyDays(bs, 0);
    ShownDaysIncreasing(bs, 0);
    var g, ds := WeekGrid(week, now, doc, labelOf), ShownDays(bs, 0);
    forall o | 0 <= o < DaysShown
      ensures o in ds <==> 0 < |bs[o]|
    {
      ShownDaysExactly(bs, 0, o);
    }
    forall k | 0 <= k < |g|
      ensures 0 < |g[k]|
    {
      assert ds[k] in ds;
    }
  }

  lemma AppendRegroup(done: Bucket, s: Slot, rest: Bucket)
    ensures (done + [s]) + rest == done + ([s] + rest)
  {
  }

  /** One iteration of the inner loop keeps the invariant: the slots kept
      so far followed by the rest of the walk are the whole day. */
  lemma DaySlotsStep(done: Bucket, t: nat, start: nat, date: CalendarDate, booked: seq<string>, labelOf: Labeller)
    requires t < Close
    requires done + Keep(Candidates(t), date, booked, labelOf) == Keep(Candidates(start), date, booked, labelOf)
    ensures (if labelOf(t) !in booked then done + [Slot(date, t, labelOf(t))] else done)
      + Keep(Candidates(t + Step), date, booked, labelOf) == Keep(Candidates(start), date, booked, labelOf)
  {
    KeepStep(t, date, booked, labelOf);
    var rest := Keep(Candidates(t + Step), date, booked, labelOf);
    if labelOf(t) !in booked {
      AppendRegroup(done, Slot(date, t, labelOf(t)), rest);
    } else {
      assert [] + rest == rest;
    }
  }

  /** Once the walk reaches 21:00 nothing is left to keep. */
  lemma DaySlotsDone(done: Bucket, t: nat, start: nat, date: CalendarDate, booked: seq<string>, labelOf: Labeller)
    requires Close <= t
    requires done + Keep(Candidates(t), date, booked, labelOf) == Keep(Candidates(start), date, booked, labelOf)
    ensures done == Keep(Candidates(start), date, booked, labelOf)
  {
    CandidatesUnfold(t);
    assert done + [] == done;
  }

  /** The half-hour walk of one day, as the page's inner loop does it. */
  method DaySlots(date: CalendarDate, start: nat, booked: seq<string>, labelOf: Labeller) returns (timeSlots: Bucket)
    ensures timeSlots == Keep(Candidates(start), date, booked, labelOf)
  {
    var t := start;
    timeSlots := [];
    while t < Close
      invariant timeSlots + Keep(Candidates(t), date, booked, labelOf) == Keep(Candidates(start), date, booked, labelOf)
      decreases Close - t
    {
      DaySlotsStep(timeSlots, t, start, date, booked, labelOf);
      if labelOf(t) !in booked {
        timeSlots := timeSlots + [Slot(date, t, labelOf(t))];
      }
      t := t + Step;
    }
    DaySlotsDone(timeSlots, t, start, date, booked, labelOf);
  }

  /** Moving one day from the rest of the week onto the grid built so far. */
  lemma DropEmptyStep(grid: Grid, bs: seq<Bucket>, i: nat)
    requires i < |bs|
    ensures grid + DropEmpty(bs, i) ==
      (if 0 < |bs[i]| then grid + [bs[i]] else grid) + DropEmpty(bs, i + 1)
  {
    if 0 < |bs[i]| {
      assert grid + ([bs[i]] + DropEmpty(bs, i + 1)) == (grid + [bs[i]]) + DropEmpty(bs, i + 1);
    } else {
      assert [] + DropEmpty(bs, i + 1) == DropEmpty(bs, i + 1);
    }
  }

  /** `getAvailableSlots`: the same walk as the page, one day at a time. */
  method GetAvailableSlots(week: seq<CalendarDate>, now: Clock, doc: Doctor, labelOf: Labeller) returns (grid: Grid)
    requires |week| == DaysShown
    ensures grid == WeekGrid(week, now, doc, labelOf)
    ensures |grid| <= DaysShown
    ensures forall k :: 0 <= k < |grid| ==> 0 < |grid[k]|
  {
    ghost var bs := DayBuckets(week, now, doc, labelOf);
    grid := [];
    var i := 0;
    while i < DaysShown
      invariant i <= DaysShown
      invariant grid + DropEmpty(bs, i) == DropEmpty(bs, 0)
    {
      var timeSlots := DaySlots(week[i], DayStart(i, now), BookedOn(doc, Key(week[i])), labelOf);
      DayBucketsAt(week, now, doc, labelOf, i);
      DropEmptyStep(grid, bs, i);
      if |timeSlots| > 0 {
        grid := grid + [timeSlots];
      }
      i := i + 1;
    }
  }

  /** `doctors.find(d => d._id === docId)`: the first doctor with the id. */
  function FindDoctor(doctors: seq<Doctor>, id: string): (r: Option<Doctor>)
    ensures r.None? <==> forall j :: 0 <= j < |doctors| ==> doctors[j].id != id
    ensures r.Some? ==> exists i :: 0 <= i < |doctors| && doctors[i] == r.value && r.value.id == id &&
                                    forall j :: 0 <= j < i ==> doctors[j].id != id
  {
    if |doctors| == 0 then None
    else if doctors[0].id == id then Some(doctors[0])
    else
      var r := FindDoctor(doctors[1..], id);
      assert forall j :: 0 < j < |doctors| ==> doctors[j] == doctors[1..][j - 1];
      if r.Some? then
        var i :| 0 <= i < |doctors| - 1 && doctors[1..][i] == r.value && r.value.id == id &&
                 forall j :: 0 <= j < i ==> doctors[1..][j].id != id;
        assert doctors[i + 1] == r.value;
        r
      else r
  }

  /** The slot grid the page holds after `getAvailableSlots` runs: unchanged
      while no doctor is selected, else the freshly generated week. */
  function RefreshSlots(current: Grid, docInfo: Option<Doctor>, week: seq<CalendarDate>, now: Clock, labelOf: Labeller): (g: Grid)
    requires |week| == DaysShown
    ensures docInfo.None? ==> g == current
    ensures docInfo.Some? ==> g == WeekGrid(week, now, docInfo.value, labelOf)
    ensures docInfo.Some? ==> |g| <= DaysShown && forall k :: 0 <= k < |g| ==> 0 < |g[k]|
  {
    match docInfo
    case None => current
    case Some(doc) => WeekGrid(week, now, doc, labelOf)
  }
}

=== FILE: time_label.dfy ===
/** The display label of a slot time. The page renders each slot with
    `toLocaleTimeString([], { hour: "2-digit", minute: "2-digit" })`; this model
    fixes that rendering to the en-US twelve-hour form "hh:mm AM" / "hh:mm PM".
    What the rest of the model relies on is only that the label is a function
    of the minute of the day and that distinct minutes of one day get distinct
    labels (LabelInjective). */
module TimeLabel {
  import opened Common
  import opened Decimal

  const MinutesPerDay: nat := 1440

  /** The label of minute-of-day `t`; a time past midnight reads as the
      corresponding minute of the next day, as a JavaScript Date would. */
  function Label(t: nat): (s: string)
    ensures |s| == 8 && s[2] == ':' && s[5] == ' ' && s[7] == 'M'
    ensures IsDigit(s[0]) && IsDigit(s[1]) && IsDigit(s[3]) && IsDigit(s[4])
    ensures (s[6] == 'A') == (t % MinutesPerDay < 720)
    ensures (s[6] == 'P') == (720 <= t % MinutesPerDay)
  {
    var tod := t % MinutesPerDay;
    var h := tod / 60;
    var h12 := if h % 12 == 0 then 12 else h % 12;
    Pad2(h12) + ":" + Pad2(tod % 60) + (if h < 12 then " AM" else " PM")
  }

  /** Reads a label back to its minute of the day; None for any text that is
      not a well-formed "hh:mm AM" / "hh:mm PM" label. */
  function ParseLabel(s: string): (r: Option<nat>)
    ensures r.Some? ==> r.value < MinutesPerDay
  {
    if |s| != 8 || s[2] != ':' || s[5] != ' ' || s[7] != 'M' then None
    else if !(IsDigit(s[0]) && IsDigit(s[1]) && IsDigit(s[3]) && IsDigit(s[4])) then None
    else if s[6] != 'A' && s[6] != 'P' then None
    else
      var hh := DigitValue(s[0]) * 10 + DigitValue(s[1]);
      var mm := DigitValue(s[3]) * 10 + DigitValue(s[4]);
      if hh < 1 || 12 < hh || 59 < mm then None
      else Some(((hh % 12) + (if s[6] == 'P' then 12 else 0)) * 60 + mm)
  }

  /** The twelve-hour clock's hour, with the AM/PM half, gives back the
      24-hour hour. */
  lemma TwelveHour(h: nat)
    requires h < 24
    ensures var h12 := if h % 12 == 0 then 12 else h % 12;
      1 <= h12 <= 12 && (h12 % 12) + (if h < 12 then 0 else 12) == h
  {
  }

  /** A well-formed label reads back to its hour, minute and half of day. */
  lemma ParseWellFormed(s: string, hh: nat, mm: nat, pm: bool)
    requires |s| == 8 && s[2] == ':' && s[5] == ' ' && s[7] == 'M'
    requires IsDigit(s[0]) && IsDigit(s[1]) && IsDigit(s[3]) && IsDigit(s[4])
    requires DigitValue(s[0]) * 10 + DigitValue(s[1]) == hh
    requires DigitValue(s[3]) * 10 + DigitValue(s[4]) == mm
    requires s[6] == (if pm then 'P' else 'A')
    requires 1 <= hh <= 12 && mm <= 59
    ensures ParseLabel(s) == Some(((hh % 12) + (if pm then 12 else 0)) * 60 + mm)
  {
  }

  lemma ParseLabelOfLabel(t: nat)
    requires t < MinutesPerDay
    ensures ParseLabel(Label(t)) == Some(t)
  {
    assert t % MinutesPerDay == t;
    var h, m := t / 60, t % 60;
    assert t == h * 60 + m && h < 24;
    var h12 := if h % 12 == 0 then 12 else h % 12;
    var p, q := Pad2(h12), Pad2(m);
    var suffix := if h < 12 then " AM" else " PM";
    var s := Label(t);
    assert s == p + ":" + q + suffix;
    assert s[0] == p[0] && s[1] == p[1] && s[3] == q[0] && s[4] == q[1];
    TwelveHour(h);
    ParseWellFormed(s, h12, m, h >= 12);
  }

  /** Two minutes of the same day never share a label, so a booked label
      rules out exactly one step of a day. */
  lemma LabelInjective(a: nat, b: nat)
    requires a < MinutesPerDay && b < MinutesPerDay
    requires Label(a) == Label(b)
    ensures a == b
  {
    ParseLabelOfLabel(a);
    ParseLabelOfLabel(b);
  }
}
